=== FILE: README.md ===
# Portal do Cliente — a verified model

A Dafny model of the `portal-cliente` module of the vigiae remote-concierge
backend. This is the part of the system that residents, condominium
administrators and operators use. The model covers:

- **validation and formatting helpers**: CPF, CNPJ, licence plates, phone
  numbers, future dates and vehicle years;
- **date helpers**: a fixed UTC−03:00 local clock;
- **access codes and invitation tokens**;
- **the five services**: visitors, vehicles, portal users, operators and
  invitation links.

Each MongoDB collection is a finite map from document id to record.
Soft deletion sets `active := false`, as the services do. Every thrown
exception becomes the `Err` side of a `Result`. The clock (`now`, in
milliseconds) and the random bytes are explicit parameters. The invitation-link
Redis cache is a second map, keyed by token, held next to the links. The model
proves that the cache never changes an answer.

| file | module | models |
|---|---|---|
| wrappers.dfy | `Wrappers` | `Option`, `Result`, JavaScript truthiness of optional strings |
| text.dfy | `Text` | character classes, ASCII upper-casing, decimal and hex text, splitting |
| dates.dfy | `Dates` | date.util.ts |
| validation.dfy | `Validation` | validation.util.ts and the regex patterns of portal-cliente.constants.ts |
| accesscode.dfy | `AccessCode` | the token and access-code parts of qrcode.util.ts |
| store.dfy | `Store` | ordered selection from a collection (`find(filter).sort(key)`) |
| visitors.dfy | `Visitors` | visitors.service.ts |
| vehicles.dfy | `Vehicles` | vehicles.service.ts |
| users.dfy | `Users` | users.service.ts |
| operators.dfy | `Operators` | operators.service.ts |
| invitationlinks.dfy | `InvitationLinks` | invitation-links.service.ts and its schema |

## Model

| member | source | states |
|---|---|---|
| Validation.CleanDocumentFixpoint | src/modules/portal-cliente/shared/utils/validation.util.ts:149-151 | cleaning a document leaves a string unchanged exactly when it is all digits, and cleaning twice is the same as cleaning once |
| Validation.ValidateCpf | src/modules/portal-cliente/shared/utils/validation.util.ts:7-42 | the two weighted-sum loops accept exactly the strings that satisfy the CPF rule: eleven digits once cleaned, not all equal, and both check digits right |
| Validation.CheckDigit | src/modules/portal-cliente/shared/utils/validation.util.ts:26-27 | a check digit is below 10; it is 0 when the remainder mod 11 is below 2; otherwise it brings the weighted sum to a multiple of 11 |
| Validation.CpfCompletion | src/modules/portal-cliente/shared/utils/validation.util.ts:7-42 | a CPF is valid iff its eleven cleaned digits are not all equal and equal the first nine followed by the two check digits computed from them |
| Validation.CpfIgnoresPunctuation | src/modules/portal-cliente/shared/utils/validation.util.ts:9 | CPF validity is unchanged by removing dots, dashes and any other non-digits |
| Validation.RepeatedDigitsPassChecksum | src/modules/portal-cliente/shared/utils/validation.util.ts:16-19 | eleven equal digits satisfy both check-digit equations, so only the repeated-digit test rejects them |
| Validation.ValidateCnpj | src/modules/portal-cliente/shared/utils/validation.util.ts:47-88 | the two CNPJ loops, whose weights restart at 9, accept exactly the fourteen-digit, not-all-equal strings whose two check digits are right |
| Validation.FormatCpf | src/modules/portal-cliente/shared/utils/validation.util.ts:111-114 | eleven cleaned digits come out in the `000.000.000-00` pattern; shorter input comes back as its digits alone |
| Validation.FormatCpfRoundTrip | src/modules/portal-cliente/shared/utils/validation.util.ts:111-114 | formatting a CPF never changes its digits: cleaning the formatted text returns the cleaned input |
| Validation.FormatCnpj | src/modules/portal-cliente/shared/utils/validation.util.ts:119-125 | fourteen cleaned digits come out in the `00.000.000/0000-00` layout; shorter input comes back as its digits alone |
| Validation.FormatCnpjRoundTrip | src/modules/portal-cliente/shared/utils/validation.util.ts:119-125 | formatting a CNPJ never changes its digits |
| Validation.FormatPlate | src/modules/portal-cliente/shared/utils/validation.util.ts:130-144 | a formatted plate holds only upper-case letters and digits, with a dash allowed only in the fourth position |
| Validation.OldPlateFormats | src/modules/portal-cliente/shared/utils/validation.util.ts:139-141 | a plate that matches the old `AAA-9999` pattern once upper-cased is formatted to exactly its upper-cased self |
| Validation.MercosulPlateFormats | src/modules/portal-cliente/shared/utils/validation.util.ts:134-136 | a plate that matches the Mercosul `AAA9A99` pattern once upper-cased is formatted to exactly its upper-cased self |
| Validation.ValidPlateFormatsToItself | src/modules/portal-cliente/shared/utils/validation.util.ts:93-99 | every plate the validator accepts is stored in its upper-cased form, and the stored form is again valid |
| Validation.FormatPlateIdempotent | src/modules/portal-cliente/shared/utils/validation.util.ts:130-144 | formatting an already formatted plate changes nothing |
| Validation.PhoneDigitCount | src/modules/portal-cliente/shared/utils/validation.util.ts:104-106 | an accepted phone number has 10 or 11 digits, and the first two are the area code inside the parentheses |
| Validation.CanonicalPhoneAccepted | src/modules/portal-cliente/shared/constants/portal-cliente.constants.ts:67 | every `(AA) NNNN-NNNN` or `(AA) NNNNN-NNNN` number is accepted |
| Validation.NotPastDateMeaning | src/modules/portal-cliente/shared/utils/validation.util.ts:156-162 | a date passes iff it falls at or after today's local midnight, that is, on today's local day or later; any instant from now on passes |
| Validation.VehicleYearRange | src/modules/portal-cliente/shared/utils/validation.util.ts:167-170 | when `yr-m-d` is today's local date, a vehicle year passes iff it lies between 1900 and `yr + 1` |
| Dates.BeforeIsConverseOfAfter | src/modules/portal-cliente/shared/utils/date.util.ts:23-32 | "before" is "after" with the arguments swapped, and no instant is both before and after another |
| Dates.BetweenIsNeitherBeforeNorAfter | src/modules/portal-cliente/shared/utils/date.util.ts:37-40 | an instant is between two bounds (inclusive) iff it is neither before the lower nor after the upper |
| Dates.ExpiryBoundary | src/modules/portal-cliente/shared/utils/date.util.ts:119-121 | a deadline has not expired at its own instant, and once expired it stays expired |
| Dates.AddHours | src/modules/portal-cliente/shared/utils/date.util.ts:5-9 | adding a non-negative number of hours never moves a date backwards (the exact move is stated by `Dates.AddHoursOnClock`) |
| Dates.AddHoursInverse | src/modules/portal-cliente/shared/utils/date.util.ts:5-9 | adding h hours and then −h hours returns the original instant |
| Dates.AddHoursOnClock | src/modules/portal-cliente/shared/utils/date.util.ts:5-9 | adding h hours moves the local time of day by h hours modulo a day and the local day by the carried days, and 24 n hours are exactly n days |
| Dates.AddDaysInverse | src/modules/portal-cliente/shared/utils/date.util.ts:14-18 | adding n days and then −n days returns the original instant |
| Dates.AddDaysKeepsTimeOfDay | src/modules/portal-cliente/shared/utils/date.util.ts:14-18 | adding n days moves the local day by exactly n and keeps the time of day |
| Dates.DaysBetween | src/modules/portal-cliente/shared/utils/date.util.ts:110-114 | the result is the number of whole days from the first date to the second, rounded down; it is negative exactly when the second is earlier |
| Dates.DaysBetweenSwap | src/modules/portal-cliente/shared/utils/date.util.ts:110-114 | swapping the dates negates the difference, up to one day of rounding, and exactly when they are whole days apart |
| Dates.StartOfDay | src/modules/portal-cliente/shared/utils/date.util.ts:45-49 | start of day is local midnight of the same local day, at or before the instant and less than a day before it |
| Dates.EndOfDay | src/modules/portal-cliente/shared/utils/date.util.ts:54-58 | end of day is the last millisecond of the same local day |
| Dates.StartOfDayIdempotent | src/modules/portal-cliente/shared/utils/date.util.ts:45-49 | the start of the start of a day is that start |
| Dates.SameDayIffSameStart | src/modules/portal-cliente/shared/utils/date.util.ts:45-49 | two instants share a local day iff they share a start of day, and the order of days is the order of their starts |
| Dates.CivilOf | src/modules/portal-cliente/shared/utils/date.util.ts:84-93 | the local calendar reading has a month in 1..12, a day in 1..31, an hour in 0..23 and a minute in 0..59 (its calendar correctness is the next rows) |
| Dates.CivilOfInverse | src/modules/portal-cliente/shared/utils/date.util.ts:84-93 | the reading is a real calendar date (month 1..12, day within that month of that year, leap years included) whose day count from 1 January 1970 is the local day of the instant; hour and minute are the local time of day truncated to the minute |
| Dates.CivilUnique | src/modules/portal-cliente/shared/utils/date.util.ts:84-93 | two valid calendar dates with the same day count are the same date |
| Dates.CivilOfCharacterised | src/modules/portal-cliente/shared/utils/date.util.ts:84-93 | for any valid date, the reading shows that date iff its day count is the local day of the instant |
| Dates.EpochIsNewYearsEve | src/modules/portal-cliente/shared/utils/date.util.ts:84-93 | instant 0 reads as 21:00 on 31 December 1969 in UTC−03:00 |
| Dates.LeapDay2000 | src/modules/portal-cliente/shared/utils/date.util.ts:84-93 | 2000-02-29T15:00Z reads as noon of 29 February 2000 locally, so the leap day of 2000 is counted |
| Dates.FormatDate | src/modules/portal-cliente/shared/utils/date.util.ts:98-105 | the text is `DD/MM/` followed by the year; the two-digit fields read back as the local day and month |
| Dates.FormatDateTime | src/modules/portal-cliente/shared/utils/date.util.ts:84-93 | the text is the date text followed by ` HH:mm`, whose fields read back as the local hour and minute |
| Dates.FormatDateOfDay | src/modules/portal-cliente/shared/utils/date.util.ts:98-105 | the date text depends only on the local day |
| AccessCode.LinkToken | src/modules/portal-cliente/shared/utils/qrcode.util.ts:19-21 | an invitation token is 64 lower-case hex characters |
| AccessCode.LinkTokenInjective | src/modules/portal-cliente/shared/utils/qrcode.util.ts:19-21 | different random bytes give different tokens |
| AccessCode.TimestampPart | src/modules/portal-cliente/shared/utils/qrcode.util.ts:9 | the timestamp part is the last six decimal digits of the clock, and it has six characters iff the clock reads at least 100000 |
| AccessCode.RandomPart | src/modules/portal-cliente/shared/utils/qrcode.util.ts:10 | the random part is four upper-case hex characters |
| AccessCode.CleanIdentifier | src/modules/portal-cliente/shared/utils/qrcode.util.ts:11 | the cleaned identifier holds only upper-case letters and digits, is never longer than the input, and leaves an already clean identifier unchanged (its exact content is the next two rows) |
| AccessCode.CleanIdentifierAppend | src/modules/portal-cliente/shared/utils/qrcode.util.ts:11 | cleaning works character by character: cleaning a concatenation is the concatenation of the cleaned parts |
| AccessCode.CleanIdentifierChar | src/modules/portal-cliente/shared/utils/qrcode.util.ts:11 | a single letter or digit is kept, upper-cased; any other single character is dropped |
| AccessCode.GeneratedCodeFormat | src/modules/portal-cliente/shared/utils/qrcode.util.ts:84-88 | a generated code passes the format check iff the prefix has at least three upper-case letters, the cleaned identifier is not empty and the timestamp part has six digits |
| AccessCode.GeneratedCodeParts | src/modules/portal-cliente/shared/utils/qrcode.util.ts:8-14 | splitting a generated code at its dashes recovers prefix, cleaned identifier, timestamp part and random part |
| Store.Select | src/modules/portal-cliente/visitors/visitors.service.ts:50-55 | a query returns every matching document exactly once and nothing else, in ascending order of the sort key |
| Visitors.Create | src/modules/portal-cliente/visitors/visitors.service.ts:22-48 | an invalid CPF gives InvalidDocument before the date is checked, then a past date gives PastValidity; creation succeeds iff both pass; the new record holds the cleaned CPF, the given name, phone, notes and validity, the given schedule when it is truthy and the default schedule otherwise, and nothing else changes |
| Visitors.FindOne | src/modules/portal-cliente/visitors/visitors.service.ts:57-69 | an absent id gives NotFound, another resident's visitor gives Forbidden, and the resident's own visitor is returned |
| Visitors.CreateThenFindOne | src/modules/portal-cliente/visitors/visitors.service.ts:57-69 | a created visitor is found by its resident and refused to every other resident |
| Visitors.Update | src/modules/portal-cliente/visitors/visitors.service.ts:71-106 | ownership errors come first, then a bad new CPF gives InvalidDocument, then a past new date gives PastValidity; on success only that visitor changes: a truthy CPF is stored cleaned, each given name, phone, schedule, notes or validity date replaces the old value, and owner, link, activity and creation time are kept |
| Visitors.UpdateNothing | src/modules/portal-cliente/visitors/visitors.service.ts:92-103 | an update with no fields leaves the collection as it was |
| Visitors.UpdateIdempotent | src/modules/portal-cliente/visitors/visitors.service.ts:71-106 | applying the same update twice gives the same collection as applying it once |
| Visitors.Remove | src/modules/portal-cliente/visitors/visitors.service.ts:108-115 | removal fails exactly as findOne does, and otherwise only marks that visitor inactive |
| Visitors.RemoveIdempotent | src/modules/portal-cliente/visitors/visitors.service.ts:108-115 | removing a visitor twice leaves the same collection as removing it once |
| Visitors.CreatePreservesValid | src/modules/portal-cliente/visitors/visitors.service.ts:22-48 | a creation keeps every stored visitor's document an eleven-digit valid CPF |
| Visitors.UpdatePreservesValid | src/modules/portal-cliente/visitors/visitors.service.ts:71-106 | an update keeps every stored visitor's document an eleven-digit valid CPF |
| Visitors.RemovePreservesValid | src/modules/portal-cliente/visitors/visitors.service.ts:108-115 | a removal keeps every stored visitor's document an eleven-digit valid CPF |
| Visitors.FindAll | src/modules/portal-cliente/visitors/visitors.service.ts:50-55 | the listing is exactly the resident's active visitors, each once, newest first |
| Visitors.FindActive | src/modules/portal-cliente/visitors/visitors.service.ts:117-128 | the listing is exactly the resident's active visitors valid from now on, each once, soonest expiry first |
| Visitors.CountActive | src/modules/portal-cliente/visitors/visitors.service.ts:130-140 | the count equals the number of visitors findAtivos would list |
| Visitors.CreateLists | src/modules/portal-cliente/visitors/visitors.service.ts:50-55 | after a creation, the owner's listing gains exactly the new visitor and every other resident's listing is unchanged |
| Visitors.RemoveUnlists | src/modules/portal-cliente/visitors/visitors.service.ts:108-128 | after a removal, the visitor leaves both the full and the currently-valid listings and nothing else does |
| Visitors.CurrentShrinks | src/modules/portal-cliente/visitors/visitors.service.ts:117-128 | as time passes the currently-valid listing can only shrink, and it is always part of the full listing |
| Vehicles.Create | src/modules/portal-cliente/vehicles/vehicles.service.ts:22-65 | an invalid plate gives InvalidPlate, then a plate already stored anywhere in its formatted form gives PlateTaken, then a truthy out-of-range year gives InvalidYear; creation succeeds iff all three pass; the record holds the formatted plate and the given kind, brand, model, color, year, fuel and notes |
| Vehicles.FindOne | src/modules/portal-cliente/vehicles/vehicles.service.ts:74-86 | an absent id gives NotFound, another resident's vehicle gives Forbidden, and the resident's own vehicle is returned |
| Vehicles.Update | src/modules/portal-cliente/vehicles/vehicles.service.ts:88-129 | ownership errors come first, then a truthy invalid plate gives InvalidPlate, then a plate held by another vehicle gives PlateTaken, then a bad year gives InvalidYear; on success only that vehicle changes: a truthy plate is stored formatted, each given kind, brand, model, color, year, fuel or notes replaces the old value, and owner, activity and creation time are kept |
| Vehicles.Remove | src/modules/portal-cliente/vehicles/vehicles.service.ts:131-138 | removal fails exactly as findOne does, and otherwise only marks that vehicle inactive |
| Vehicles.CreatePreservesValid | src/modules/portal-cliente/vehicles/vehicles.service.ts:35-44 | after a creation every stored plate is still valid and formatted, and no two vehicles share a plate |
| Vehicles.UpdatePreservesValid | src/modules/portal-cliente/vehicles/vehicles.service.ts:95-114 | an update keeps all plates valid, formatted and pairwise different |
| Vehicles.RemovePreservesValid | src/modules/portal-cliente/vehicles/vehicles.service.ts:131-138 | a removal keeps all plates valid, formatted and pairwise different |
| Vehicles.RemovedPlateStaysTaken | src/modules/portal-cliente/vehicles/vehicles.service.ts:38-44 | the plate of a removed vehicle still blocks a new vehicle, because the conflict check does not look at `ativo` |
| Vehicles.OwnPlateIsNoConflict | src/modules/portal-cliente/vehicles/vehicles.service.ts:103-111 | re-submitting a vehicle's own plate is not a conflict |
| Vehicles.FindAll | src/modules/portal-cliente/vehicles/vehicles.service.ts:67-72 | the listing is exactly the resident's active vehicles, each once, newest first |
| Vehicles.Count | src/modules/portal-cliente/vehicles/vehicles.service.ts:140-142 | the count equals the number of vehicles findAll would list |
| Users.AccessPrefix | src/modules/portal-cliente/users/users.service.ts:52 | the prefix is three upper-case letters, and it is `ADM` exactly for administrators |
| Users.EmailHead | src/modules/portal-cliente/users/users.service.ts:53 | the fallback identifier is a prefix of the e-mail of at most five characters without `@`, and it is shorter than five only when it reaches the `@` or the end |
| Users.Create | src/modules/portal-cliente/users/users.service.ts:24-70 | a truthy invalid CPF gives InvalidCpf, then a truthy invalid phone gives InvalidPhone; on success the new user holds the given name, e-mail, type, unit, phone and password hash, a generated access code, the cleaned CPF when the CPF is truthy and no document otherwise, no assigned condominiums, and nothing else changes — no e-mail check is made (see Findings) |
| Users.CreatedAccessCode | src/modules/portal-cliente/users/users.service.ts:52-54 | the stored access code splits into the user-type prefix, the cleaned identifier, the timestamp part and the random part, and it passes the format check iff the identifier is not empty and the clock has six digits |
| Users.DuplicateEmailNotReported | src/modules/portal-cliente/users/users.service.ts:28-70 | whenever the CPF and phone checks pass and the e-mail is already used in the condominium, create as written goes ahead, the save then fails with a duplicate-key error, and the checked create would have answered EmailTaken |
| Users.Save | src/modules/portal-cliente/users/schemas/user-portal.schema.ts:73 | a write is accepted iff afterwards no two users of one condominium share an e-mail, and is otherwise refused with DuplicateKey |
| Users.CreateAndSave | src/modules/portal-cliente/users/users.service.ts:24-70 | create followed by the guarded save never reports EmailTaken; it fails with DuplicateKey exactly when create succeeds and the e-mail is already used in the condominium; a success keeps e-mails unique per condominium |
| Users.CreateUnique | src/modules/portal-cliente/users/users.service.ts:28-35 | with the duplicate check done on the condominium field, a used e-mail gives EmailTaken, and otherwise the result is the plain creation |
| Users.CreateUniqueKeepsEmailsUnique | src/modules/portal-cliente/users/schemas/user-portal.schema.ts:73 | the corrected creation keeps e-mails unique within every condominium |
| Users.CeilDiv | src/modules/portal-cliente/users/users.service.ts:112 | the page count is the least number of pages of the given size that hold every result |
| Users.Window | src/modules/portal-cliente/users/users.service.ts:99-100 | the window starts at the skip offset and holds the limit, or whatever remains |
| Users.ListMatching | src/modules/portal-cliente/users/users.service.ts:81-101 | the query yields exactly the users of the condominium that match the type filter, each once, newest first |
| Users.FindAll | src/modules/portal-cliente/users/users.service.ts:72-115 | page and limit default to 1 and 20; the full listing `all` holds every match exactly once, newest first; the data is exactly the window of `all` at the page's skip offset; the total counts every match and the page count covers the total |
| Users.PageOfPosition | src/modules/portal-cliente/users/users.service.ts:78-112 | the match at position i of the full listing appears on page i / limit + 1, at offset i minus that page's skip, and that page lies between 1 and the page count |
| Users.Update | src/modules/portal-cliente/users/users.service.ts:137-174 | an absent user gives NotFound, then a truthy invalid CPF gives InvalidCpf, then a truthy invalid phone gives InvalidPhone; on success only that user changes: a truthy password is hashed and an empty one keeps the old hash, a truthy name or e-mail and each given type, unit, phone or active flag replaces the old value, a truthy CPF is stored cleaned and a given but empty CPF clears the document, and condominium, access code, permissions and assignments are kept |
| Users.UpdateIdempotent | src/modules/portal-cliente/users/users.service.ts:137-174 | applying the same update twice gives the same collection as applying it once |
| Users.Remove | src/modules/portal-cliente/users/users.service.ts:176-187 | an absent user gives NotFound; otherwise only that user is marked inactive |
| Users.RemoveUnlists | src/modules/portal-cliente/users/users.service.ts:176-187 | a removed user leaves every listing and nothing else changes in it |
| Operators.FindOne | src/modules/portal-cliente/operators/operators.service.ts:40-59 | a user is found iff it is an active staff member serving the condominium, directly or by assignment; anything else gives NotFound |
| Operators.FindAll | src/modules/portal-cliente/operators/operators.service.ts:16-38 | the listing is exactly the active users matching the filters, each once, newest first |
| Operators.ListingAgreesWithFindOne | src/modules/portal-cliente/operators/operators.service.ts:16-59 | filtering by a condominium lists exactly the users findOne would return for it |
| Operators.Create | src/modules/portal-cliente/operators/operators.service.ts:61-95 | creation succeeds iff the e-mail is not stored on any user, and otherwise gives EmailInUse; the new staff user holds the given name, e-mail, phone, document and password hash, no unit, the default permissions, must change the password, and nothing else changes |
| Operators.CreatedOperatorInScope | src/modules/portal-cliente/operators/operators.service.ts:61-95 | a newly created staff user is immediately found in its condominium |
| Operators.Update | src/modules/portal-cliente/operators/operators.service.ts:97-128 | an out-of-scope user gives NotFound; EmailInUse is returned iff the user is in scope and a new e-mail belongs to another user, and the update succeeds otherwise; on success only that user changes: a truthy name, e-mail, phone, document or password and each given permission set or assignment list replaces the old value, and type, activity, unit, access code and creation time are kept |
| Operators.CreateKeepsEmailsUnique | src/modules/portal-cliente/operators/operators.service.ts:63-69 | creating an operator keeps every e-mail unique across all users |
| Operators.UpdateKeepsEmailsUnique | src/modules/portal-cliente/operators/operators.service.ts:100-108 | updating an operator keeps every e-mail unique across all users |
| Operators.Remove | src/modules/portal-cliente/operators/operators.service.ts:130-137 | removal succeeds exactly when findOne would, and only marks that user inactive |
| Operators.RemoveThenNotFound | src/modules/portal-cliente/operators/operators.service.ts:130-137 | after removal the user is no longer found in any condominium |
| InvitationLinks.Create | src/modules/portal-cliente/invitation-links/invitation-links.service.ts:39-98 | a past validity date is refused and a colliding token is refused; on success the link starts with no visitors, keeps the given schedule when it is truthy and the default schedule otherwise, expires the configured hours after creation, is cached, and its URL ends in the token |
| InvitationLinks.FindByToken | src/modules/portal-cliente/invitation-links/invitation-links.service.ts:100-148 | unknown tokens give NotFound; a known link is refused as revoked, then as expired (strictly past its deadline), then as full, and is otherwise returned |
| InvitationLinks.CacheTransparent | src/modules/portal-cliente/invitation-links/invitation-links.service.ts:100-126 | under the state invariant, the answer for any token is the same with or without the cache |
| InvitationLinks.EvictCache | src/modules/portal-cliente/invitation-links/invitation-links.service.ts:76-87 | dropping a cache entry changes neither links nor visitors, removes only that key, and leaves every other entry's value as it was |
| InvitationLinks.EvictionIsHarmless | src/modules/portal-cliente/invitation-links/invitation-links.service.ts:76-87 | losing a cache entry keeps the invariants and changes no token's answer |
| InvitationLinks.Register | src/modules/portal-cliente/invitation-links/invitation-links.service.ts:150-206 | the token's lookup error comes first, then a link missing from the store, then an invalid CPF; on success one visitor is added with the given name and phone, the cleaned CPF, and the link's resident, schedule and validity; the counter goes up by one, and the cache is refreshed |
| InvitationLinks.Revoke | src/modules/portal-cliente/invitation-links/invitation-links.service.ts:208-224 | NotFound iff the resident owns no link with that id; otherwise those links are marked revoked and dropped from the cache |
| InvitationLinks.OwnedIsSingle | src/modules/portal-cliente/invitation-links/invitation-links.service.ts:208-213 | under the invariant a link id and resident name at most one token |
| InvitationLinks.RevokeIdempotent | src/modules/portal-cliente/invitation-links/invitation-links.service.ts:208-224 | revoking twice gives the same state as revoking once |
| InvitationLinks.RevokedThenRefused | src/modules/portal-cliente/invitation-links/invitation-links.service.ts:129-133 | after revocation the token is refused as revoked |
| InvitationLinks.FindAllByResident | src/modules/portal-cliente/invitation-links/invitation-links.service.ts:226-231 | the listing is exactly the resident's links, each once, newest first |
| InvitationLinks.Sweep | src/modules/portal-cliente/invitation-links/invitation-links.service.ts:233-267 | the sweep keeps exactly the links created within the last seven days, revokes those past their deadline, evicts their cache entries and leaves visitors alone |
| InvitationLinks.SweepLeavesNoLiveExpired | src/modules/portal-cliente/invitation-links/invitation-links.service.ts:237-254 | after a sweep every remaining link past its deadline is revoked |
| InvitationLinks.SweepIdempotent | src/modules/portal-cliente/invitation-links/invitation-links.service.ts:233-262 | sweeping twice at the same instant is the same as sweeping once |
| InvitationLinks.CreatePreservesInv | src/modules/portal-cliente/invitation-links/invitation-links.service.ts:56-87 | creation keeps the state invariant and keeps every counter equal to the visitors registered through its link |
| InvitationLinks.RegisterPreservesInv | src/modules/portal-cliente/invitation-links/invitation-links.service.ts:141-196 | a registration keeps the invariant, keeps every counter at most its limit, and keeps every counter equal to the visitors registered through its link |
| InvitationLinks.RevokePreservesInv | src/modules/portal-cliente/invitation-links/invitation-links.service.ts:208-224 | revocation keeps the invariant and the counters |
| InvitationLinks.SweepPreservesInv | src/modules/portal-cliente/invitation-links/invitation-links.service.ts:233-262 | with a link lifetime of at most seven days, the sweep keeps the invariant and the counters |
| InvitationLinks.InsertKeepsInv | src/modules/portal-cliente/invitation-links/invitation-links.service.ts:56-87 | storing and caching a new unrevoked link under an unused token, with a fresh id, a counter within its limit and the configured lifetime, keeps the invariant |
| InvitationLinks.InsertKeepsCounted | src/modules/portal-cliente/invitation-links/invitation-links.service.ts:56-87 | a new link with a zero counter whose id no visitor refers to keeps every counter equal to its registrations |
| InvitationLinks.MarkRevokedKeepsInv | src/modules/portal-cliente/invitation-links/invitation-links.service.ts:208-224 | revoking any set of links and evicting exactly their cache entries keeps the invariant and the counters |
| InvitationLinks.PurgeKeepsInv | src/modules/portal-cliente/invitation-links/invitation-links.service.ts:256-262 | deleting the links older than seven days keeps the invariant and the counters when no cached link is past its deadline and links live at most seven days |
| InvitationLinks.CapacityRespected | src/modules/portal-cliente/invitation-links/invitation-links.service.ts:141-145 | no link ever has more visitors registered through it than its limit |
| InvitationLinks.RegisterKeepsVisitorsValid | src/modules/portal-cliente/invitation-links/invitation-links.service.ts:161-176 | visitors registered through a link hold a valid cleaned CPF like any other visitor |
| InvitationLinks.SingleUseLink | src/modules/portal-cliente/invitation-links/invitation-links.service.ts:141-182 | a link created for one visitor accepts the first registration and refuses the second with the limit error |

## Left out

- Persistence, HTTP controllers, guards, DTO decorators and NestJS wiring are
  not modelled. DTO constraints appear as preconditions:
  - `Users.ValidPaging`: page ≥ 1, 1 ≤ limit ≤ 100;
  - `InvitationLinks.ValidRequest`: 1 ≤ maxVisitors ≤ 50.
- Concurrency is not modelled. Every operation is one atomic step, although
  the source's read-then-write sequences are not atomic. Examples are the
  plate and e-mail conflict checks and the `$inc` of the link counter.
- Database indexes are mostly not modelled. The unique index on condominium
  and e-mail is modelled only for user creation (`Users.Save`,
  `Users.CreateAndSave`, see Findings). The unique indexes on access code and
  document are not modelled, and neither are the updates the
  condominium-and-e-mail index would refuse. A token collision is modelled as
  the `TokenTaken` error, since the unique token index would reject it.
- `Operators.Create`: its success path is one the program never reaches.
  The user schema marks `accessCode` as required and unique
  (src/modules/portal-cliente/users/schemas/user-portal.schema.ts:44-45), but
  operator creation (src/modules/portal-cliente/operators/operators.service.ts:74-92)
  never sets it. So every real creation that passes the e-mail check is refused
  by schema validation on save. The model leaves Mongoose schema validation out
  and describes the record the service builds, with no access code.
- `Users.EmailHead`: counts Unicode scalar values, where JavaScript's
  `substring(0, 5)` counts UTF-16 code units. So an e-mail with characters
  outside the Basic Multilingual Plane among its first five may give a
  different fallback identifier.
- The cache's time-to-live and eviction policy are not modelled. Any entry
  may be dropped at any moment (`InvitationLinks.EvictCache`), which covers
  both.
- On a cache miss, `findByToken` populates the resident's name. That
  cross-collection join is not modelled; the snapshot carries the resident id.
- The cron trigger of the link sweep is not modelled. The sweep's log output
  is not modelled either.
- Password hashing (bcrypt) is not modelled. The hash is a parameter.
- The randomness behind tokens and access codes is a parameter. So is the
  clock (`Date.now()`).
- The QR-code payload and image generation are not modelled: `gerarQRCode`,
  `gerarDadosQRCodeAcesso` and `users.getQRCode`.
- These are not modelled:
  - the operator dashboard and assigned-condominium lookups, `getDashboard`
    and `getAssignedCondominiums`;
  - `users.findOne` and `users.findByEmail`, which are plain reads;
  - `inicioDoMes` and `fimDoMes`.
- Local time is a fixed UTC−03:00 offset. Real time-zone rules, daylight
  saving included, are not modelled.
- `Users.FindAll` does not model the free-text `search` filter, a regular
  expression over name, e-mail and unit. `populate` and the hidden password
  field are not modelled either.
- `Validation.IsValidPlate` upper-cases ASCII letters only. JavaScript's
  `toUpperCase` also maps letters outside ASCII, some of them to two
  characters, so a plate spelled with such letters may be judged differently.
- `Vehicles.Create` checks the year against the calendar year of the fixed
  local clock. A year that is `NaN` or not an integer cannot be expressed.
- With `strictQuery` on, Mongoose would drop the unknown field from the duplicate-e-mail query of `users.create`. The query would then look for the e-mail in every condominium. The model follows the filter as written, with `strictQuery` off (see Findings).
- JavaScript numbers are unbounded integers here. Pages, limits and counters
  cannot overflow or be fractional.
- `InvitationLinks.SweepPreservesInv` needs links to live at most seven days.
  With a longer configured lifetime, the purge can delete a link older than
  seven days whose deadline has not passed. Its cache entry then stays behind
  without a stored link, and the invariant no longer holds.
- About the expiry test: the code uses a strict `expiraEm < now`. The model
  follows the code, so a link is still usable at the exact instant of its
  deadline.

## Findings

| source | as written | input that shows it | evidently intended | confidence | as-written member | corrected member |
|---|---|---|---|---|---|---|
| src/modules/portal-cliente/users/users.service.ts:28-35 | the duplicate-e-mail query filters on the field `condominioId`, which the user schema does not have (it is `condominiumId`); with Mongoose's `strictQuery` off the unknown field stays in the filter and the query never matches, so no ConflictException is raised; the save then runs into the unique (condominium, e-mail) index of user-portal.schema.ts:73 and fails with a duplicate-key error the service does not handle | a store with user `u1` (`ana@x.br`, condominium `c1`); create another user with `ana@x.br` in `c1` — instead of the conflict answer, the save fails with a duplicate-key error | refuse with a conflict when the e-mail is already used in the same condominium, before saving | medium; not executed | Users.DuplicateEmailNotReported | Users.CreateUniqueKeepsEmailsUnique |

=== FILE: accesscode.dfy ===
/** Invitation tokens and access codes of qrcode.util.ts. The random bytes and
    the clock reading that the source draws itself are parameters here. */
module AccessCode {
  import opened Text

  /** gerarTokenLink: 32 random bytes as 64 lower-case hex characters. */
  function LinkToken(random: seq<byte>): (t: string)
    requires |random| == 32
    ensures |t| == 64
    ensures forall i :: 0 <= i < |t| ==> IsLowerHex(t[i])
  {
    HexEncode(random)
  }

  /** Distinct random bytes give distinct tokens. */
  lemma LinkTokenInjective(a: seq<byte>, b: seq<byte>)
    requires |a| == 32 && |b| == 32
    ensures LinkToken(a) == LinkToken(b) ==> a == b
  {
    HexInjective(a, b);
  }

  /** Euclidean division is unique. */
  lemma DivModUnique(n: int, d: int, a: int, b: int)
    requires d > 0 && 0 <= b < d && n == d * a + b
    ensures n / d == a && n % d == b
  {
    var a', b' := n / d, n % d;
    assert d * a + b == d * a' + b';
    assert d * (a - a') == b' - b;
    MulBounds(d, a - a');
  }

  lemma MulBounds(d: int, k: int)
    requires d > 0
    ensures k >= 1 ==> d * k >= d
    ensures k <= -1 ==> d * k <= -d
  {
  }

  lemma ModDecompose(n: nat, p: nat)
    requires p >= 1
    ensures 10 * ((n / 10) % p) + n % 10 == n % (10 * p)
  {
    var q, r := n / 10, n % 10;
    var a, b := q / p, q % p;
    assert n == 10 * q + r;
    assert q == p * a + b;
    assert 10 * q == 10 * (p * a) + 10 * b;
    assert 10 * (p * a) == (10 * p) * a;
    DivModUnique(n, 10 * p, a, 10 * b + r);
  }

  lemma ParseSnoc(x: string, c: char)
    requires AllDigits(x) && IsDigit(c)
    ensures ParseDecimal(x + [c]) == 10 * ParseDecimal(x) + DigitValue(c)
  {
    assert (x + [c])[..|x|] == x;
  }

  lemma SuffixOfSnoc(t: string, c: char, k: nat)
    requires 1 <= k <= |t| + 1
    ensures (t + [c])[|t| + 1 - k..] == t[|t| - (k - 1)..] + [c]
  {
  }

  lemma {:induction false} SuffixValue(n: nat, k: nat)
    requires k <= |Decimal(n)|
    ensures var s := Decimal(n); ParseDecimal(s[|s| - k..]) == n % Pow10(k)
  {
    var s := Decimal(n);
    if k == 0 {
      assert s[|s|..] == [];
    } else if n < 10 {
      DecimalRoundTrip(n);
      assert s[|s| - k..] == s;
      assert Pow10(k) == 10;
    } else {
      var t := Decimal(n / 10);
      var c := DigitChar(n % 10);
      assert s == t + [c];
      var m := (n / 10) % Pow10(k - 1);
      SuffixValue(n / 10, k - 1);
      SuffixOfSnocValue(s, t, c, k, m);
      SuffixStep(n, k, m);
    }
  }

  /** Appending a digit to a numeral extends every suffix by that digit. */
  lemma SuffixOfSnocValue(s: string, t: string, c: char, k: nat, m: nat)
    requires AllDigits(t) && IsDigit(c) && 1 <= k <= |t| + 1 && s == t + [c]
    requires ParseDecimal(t[|t| - (k - 1)..]) == m
    ensures AllDigits(s[|s| - k..])
    ensures ParseDecimal(s[|s| - k..]) == 10 * m + DigitValue(c)
  {
    var u := t[|t| - (k - 1)..];
    SuffixOfSnoc(t, c, k);
    assert s[|s| - k..] == u + [c];
    assert AllDigits(u);
    ParseSnoc(u, c);
  }

  /** The arithmetic step of `SuffixValue`, kept apart from the strings. */
  lemma SuffixStep(n: nat, k: nat, v: nat)
    requires k >= 1 && v == (n / 10) % Pow10(k - 1)
    ensures 10 * v + n % 10 == n % Pow10(k)
  {
    ModDecompose(n, Pow10(k - 1));
  }

  /** `Date.now().toString().slice(-6)`: the last six decimal digits of the
      clock, or all of them before 100000 ms. */
  function TimestampPart(now: nat): (r: string)
    ensures AllDigits(r) && |r| <= 6
    ensures |r| == 6 <==> now >= 100000
    ensures ParseDecimal(r) == now % 1_000_000
  {
    var s := Decimal(now);
    DecimalLength(now, 5);
    DecimalLength(now, 6);
    if |s| >= 6 then
      SuffixValue(now, 6);
      s[|s| - 6..]
    else
      DecimalRoundTrip(now);
      s
  }

  /** `randomBytes(2).toString('hex').toUpperCase()`. */
  function RandomPart(random: seq<byte>): (r: string)
    requires |random| == 2
    ensures |r| == 4
    ensures forall i :: 0 <= i < |r| ==> IsUpperHex(r[i])
  {
    ToUpper(HexEncode(random))
  }

  /** idClean: the identifier's ASCII letters and digits, upper-cased. */
  function CleanIdentifier(id: string): (r: string)
    ensures AllUpperOrDigit(r)
    ensures |r| <= |id|
    ensures AllUpperOrDigit(id) ==> r == id
  {
    var k := Keep(id, IsAlnum);
    assert AllUpperOrDigit(id) ==> ToUpper(k) == id by {
      if AllUpperOrDigit(id) {
        KeepIdentity(id, IsAlnum);
        ToUpperIdentity(id);
      }
    }
    ToUpper(k)
  }

  /** Cleaning works character by character: the identifier of a
      concatenation is the concatenation of the identifiers. */
  lemma CleanIdentifierAppend(a: string, b: string)
    ensures CleanIdentifier(a + b) == CleanIdentifier(a) + CleanIdentifier(b)
  {
    KeepAppend(a, b, IsAlnum);
    ToUpperAppend(Keep(a, IsAlnum), Keep(b, IsAlnum));
  }

  /** A single character survives, upper-cased, exactly when it is an ASCII
      letter or digit. With `CleanIdentifierAppend` this fixes the result for
      every identifier. */
  lemma CleanIdentifierChar(c: char)
    ensures CleanIdentifier([c]) == if IsAlnum(c) then [UpperChar(c)] else []
  {
    assert [c][1..] == [];
  }

  /** gerarCodigoAcesso: `PREFIX-ID-TIMESTAMP-RANDOM`. */
  function GenerateAccessCode(prefix: string, id: string, now: nat, random: seq<byte>): string
    requires |random| == 2
  {
    prefix + "-" + CleanIdentifier(id) + "-" + TimestampPart(now) + "-" + RandomPart(random)
  }

  /** validarFormatoCodigoAcesso, the pattern `^[A-Z]{3,}-[A-Z0-9]+-\d{6}-[A-Z0-9]{4}$`.
      None of its classes contains `-`, so a match is exactly four dash-free
      pieces. */
  predicate IsAccessCodeFormat(code: string)
  {
    var parts := Split(code, '-');
    && |parts| == 4
    && |parts[0]| >= 3 && AllUpper(parts[0])
    && |parts[1]| >= 1 && AllUpperOrDigit(parts[1])
    && |parts[2]| == 6 && AllDigits(parts[2])
    && |parts[3]| == 4 && AllUpperOrDigit(parts[3])
  }

  lemma NoDash(s: string)
    requires AllUpperOrDigit(s)
    ensures '-' !in s
  {
    forall i | 0 <= i < |s|
      ensures s[i] != '-'
    {
    }
  }

  lemma ConcatAssoc(p: string, c: string, t: string, r: string)
    ensures p + "-" + c + "-" + t + "-" + r == p + ['-'] + (c + ['-'] + (t + ['-'] + r))
  {
  }

  /** Splitting a generated code on dashes gives the prefix's pieces followed
      by the three dash-free parts. */
  lemma CodePieces(prefix: string, c: string, t: string, r: string)
    requires '-' !in c && '-' !in t && '-' !in r
    ensures Split(prefix + "-" + c + "-" + t + "-" + r, '-') == Split(prefix, '-') + [c, t, r]
  {
    SplitJoin(t, '-', r);
    var tr := t + ['-'] + r;
    SplitJoin(c, '-', tr);
    var ctr := c + ['-'] + tr;
    SplitJoin(prefix, '-', ctr);
    ConcatAssoc(prefix, c, t, r);
  }

  /** Splitting a generated code on dashes gives the prefix's pieces followed
      by the cleaned identifier, the clock digits and the random part. */
  lemma CodeSplit(prefix: string, id: string, now: nat, random: seq<byte>)
    requires |random| == 2
    ensures Split(GenerateAccessCode(prefix, id, now, random), '-') ==
      Split(prefix, '-') + [CleanIdentifier(id), TimestampPart(now), RandomPart(random)]
  {
    var c, t, r := CleanIdentifier(id), TimestampPart(now), RandomPart(random);
    assert AllUpperOrDigit(r) by {
      forall i | 0 <= i < |r| ensures IsUpper(r[i]) || IsDigit(r[i]) {
        assert IsUpperHex(r[i]);
      }
    }
    NoDash(c);
    NoDash(r);
    NoDash(t);
    CodePieces(prefix, c, t, r);
  }

  /** A generated code passes the format check exactly when the prefix is at
      least three capital letters, the cleaned identifier is not empty and the
      clock has reached 100000 ms. */
  lemma GeneratedCodeFormat(prefix: string, id: string, now: nat, random: seq<byte>)
    requires |random| == 2
    ensures IsAccessCodeFormat(GenerateAccessCode(prefix, id, now, random)) <==>
      |prefix| >= 3 && AllUpper(prefix) && |CleanIdentifier(id)| >= 1 && now >= 100000
  {
    CodeSplit(prefix, id, now, random);
    var r := RandomPart(random);
    assert AllUpperOrDigit(r) by {
      forall i | 0 <= i < |r| ensures IsUpper(r[i]) || IsDigit(r[i]) {
        assert IsUpperHex(r[i]);
      }
    }
    if AllUpper(prefix) {
      NoDash(prefix);
    }
  }

  /** The four parts of a generated code come back from splitting it on
      dashes, as long as the prefix has none. */
  lemma GeneratedCodeParts(prefix: string, id: string, now: nat, random: seq<byte>)
    requires |random| == 2 && '-' !in prefix
    ensures Split(GenerateAccessCode(prefix, id, now, random), '-') ==
      [prefix, CleanIdentifier(id), TimestampPart(now), RandomPart(random)]
  {
    CodeSplit(prefix, id, now, random);
    assert Split(prefix, '-') == [prefix];
  }
}

=== FILE: dates.dfy ===
/** Instants are integer milliseconds since the Unix epoch (`Date.getTime()`).
    Local wall-clock time is UTC shifted by the fixed offset `LocalOffset`
    (no daylight-saving changes), so the `setHours`/`setDate` arithmetic of
    date.util.ts becomes plain integer arithmetic. */
module Dates {
  import opened Text

  const MINUTE: int := 60_000
  const HOUR: int := 3_600_000
  const DAY: int := 86_400_000

  /** Local time is UTC-03:00. */
  const LocalOffset: int := -3 * HOUR

  // ---------------------------------------------------------------------
  // Comparisons

  /** isMaiorQue: the first instant is strictly later. */
  predicate IsAfter(a: int, b: int) { a > b }

  /** isMenorQue: the first instant is strictly earlier. */
  predicate IsBefore(a: int, b: int) { a < b }

  /** isEntre: inclusive at both ends. */
  predicate IsBetween(t: int, lo: int, hi: int) { t >= lo && t <= hi }

  /** isExpirado: the instant lies strictly before the clock reading `now`. */
  predicate IsExpired(t: int, now: int) { t < now }

  lemma BeforeIsConverseOfAfter(a: int, b: int)
    ensures IsBefore(a, b) == IsAfter(b, a)
    ensures !(IsBefore(a, b) && IsAfter(a, b))
  {
  }

  lemma BetweenIsNeitherBeforeNorAfter(t: int, lo: int, hi: int)
    ensures IsBetween(t, lo, hi) <==> !IsBefore(t, lo) && !IsAfter(t, hi)
    ensures IsBetween(lo, lo, hi) <==> lo <= hi
  {
  }

  /** An instant is not expired at its own moment, and expiry is permanent. */
  lemma ExpiryBoundary(t: int, now: int, later: int)
    requires now <= later
    ensures !IsExpired(t, t)
    ensures IsExpired(t, now) ==> IsExpired(t, later)
  {
  }

  // ---------------------------------------------------------------------
  // Arithmetic

  /** adicionarHoras under a fixed offset. */
  function AddHours(t: int, h: int): (r: int)
    ensures h >= 0 ==> r >= t
  {
    t + h * HOUR
  }

  /** adicionarDias under a fixed offset. */
  function AddDays(t: int, n: int): (r: int)
    ensures n >= 0 ==> r >= t
  {
    t + n * DAY
  }

  lemma AddHoursInverse(t: int, h: int)
    ensures AddHours(AddHours(t, h), -h) == t
  {
  }

  lemma AddDaysInverse(t: int, n: int)
    ensures AddDays(AddDays(t, n), -n) == t
  {
  }

  /** Adding hours moves the local clock by exactly that many hours: the time
      of day wraps around midnight, the local day advances by the carried days,
      and 24 n hours are n days. */
  lemma AddHoursOnClock(t: int, h: int, n: int)
    ensures AddHours(t, 24 * n) == AddDays(t, n)
    ensures TimeOfDay(AddHours(t, h)) == (TimeOfDay(t) + h * HOUR) % DAY
    ensures LocalDay(AddHours(t, h)) == LocalDay(t) + (TimeOfDay(t) + h * HOUR) / DAY
  {
    var x := t + LocalOffset;
    assert x == LocalDay(t) * DAY + TimeOfDay(t);
    assert AddHours(t, h) + LocalOffset == LocalDay(t) * DAY + (TimeOfDay(t) + h * HOUR);
  }

  /** diferencaEmDias: whole days from `a` to `b`, rounded down. */
  function DaysBetween(a: int, b: int): (r: int)
    ensures r * DAY <= b - a < (r + 1) * DAY
    ensures b < a ==> r < 0
    ensures a <= b ==> r >= 0
  {
    (b - a) / DAY
  }

  /** Swapping the arguments negates the difference, up to the floor. */
  lemma DaysBetweenSwap(a: int, b: int)
    ensures DaysBetween(a, b) + DaysBetween(b, a) in {0, -1}
    ensures (b - a) % DAY == 0 ==> DaysBetween(b, a) == -DaysBetween(a, b)
  {
  }

  // ---------------------------------------------------------------------
  // Local days

  /** Number of the local calendar day containing `t` (day 0 = 1970-01-01 local). */
  function LocalDay(t: int): int
  {
    (t + LocalOffset) / DAY
  }

  /** Milliseconds since local midnight. */
  function TimeOfDay(t: int): (ms: int)
    ensures 0 <= ms < DAY
  {
    (t + LocalOffset) % DAY
  }

  /** inicioDoDia: local midnight at or before `t`. */
  function StartOfDay(t: int): (r: int)
    ensures r <= t < r + DAY
    ensures TimeOfDay(r) == 0
    ensures LocalDay(r) == LocalDay(t)
  {
    t - TimeOfDay(t)
  }

  /** fimDoDia: 23:59:59.999 local on the day of `t`. */
  function EndOfDay(t: int): (r: int)
    ensures t <= r
    ensures r - StartOfDay(t) == DAY - 1
    ensures LocalDay(r) == LocalDay(t)
  {
    StartOfDay(t) + DAY - 1
  }

  lemma StartOfDayIdempotent(t: int)
    ensures StartOfDay(StartOfDay(t)) == StartOfDay(t)
  {
  }

  /** Two instants share a local day exactly when they share a day start. */
  lemma {:induction false} SameDayIffSameStart(a: int, b: int)
    ensures LocalDay(a) == LocalDay(b) <==> StartOfDay(a) == StartOfDay(b)
    ensures LocalDay(a) <= LocalDay(b) <==> StartOfDay(a) <= StartOfDay(b)
  {
    var da, db := LocalDay(a), LocalDay(b);
    assert StartOfDay(a) == da * DAY - LocalOffset;
    assert StartOfDay(b) == db * DAY - LocalOffset;
    if da < db {
      assert da * DAY < db * DAY;
    }
    if db < da {
      assert db * DAY < da * DAY;
    }
  }

  /** Adding whole days moves the day start by the same amount and keeps the
      time of day. */
  lemma {:induction false} AddDaysKeepsTimeOfDay(t: int, n: int)
    ensures StartOfDay(AddDays(t, n)) == StartOfDay(t) + n * DAY
    ensures TimeOfDay(AddDays(t, n)) == TimeOfDay(t)
  {
    var q, r := (t + LocalOffset) / DAY, (t + LocalOffset) % DAY;
    assert t + LocalOffset == q * DAY + r;
    assert AddDays(t, n) + LocalOffset == (q + n) * DAY + r;
  }

  // ---------------------------------------------------------------------
  // Proleptic Gregorian calendar

  predicate IsLeapYear(y: int)
  {
    y % 4 == 0 && (y % 100 != 0 || y % 400 == 0)
  }

  function YearLength(y: int): int
  {
    if IsLeapYear(y) then 366 else 365
  }

  function MonthLength(y: int, m: int): (n: int)
    requires 1 <= m <= 12
    ensures 28 <= n <= 31
  {
    if m == 2 then (if IsLeapYear(y) then 29 else 28)
    else if m == 4 || m == 6 || m == 9 || m == 11 then 30
    else 31
  }

  /** Days in months `m..12` of year `y`. */
  function DaysFromMonth(y: int, m: int): int
    requires 1 <= m <= 13
    decreases 13 - m
  {
    if m == 13 then 0 else MonthLength(y, m) + DaysFromMonth(y, m + 1)
  }

  lemma YearIsTwelveMonths(y: int)
    ensures DaysFromMonth(y, 1) == YearLength(y)
  {
    assert DaysFromMonth(y, 9) == 122;
    assert DaysFromMonth(y, 5) == 245;
    assert DaysFromMonth(y, 2) == YearLength(y) - 31;
  }

  /** The year and day-of-year (from 0) of the day `d` days after 1 January
      of year `y`; `d` may be negative. */
  function YearAndOrdinal(y: int, d: int): (r: (int, int))
    ensures 0 <= r.1 < YearLength(r.0)
    decreases if d < 0 then 1 else 0, if d < 0 then -d else d
  {
    if d < 0 then YearAndOrdinal(y - 1, d + YearLength(y - 1))
    else if d < YearLength(y) then (y, d)
    else YearAndOrdinal(y + 1, d - YearLength(y))
  }

  /** Month (1..12) and day of month (1..) of day-of-year `d`, walking the
      months from `m`. */
  function MonthAndDay(y: int, m: int, d: int): (r: (int, int))
    requires 1 <= m <= 12
    requires 0 <= d < DaysFromMonth(y, m)
    ensures m <= r.0 <= 12
    ensures 1 <= r.1 <= MonthLength(y, r.0)
    decreases 13 - m
  {
    if d < MonthLength(y, m) then (m, d + 1)
    else MonthAndDay(y, m + 1, d - MonthLength(y, m))
  }

  datatype Civil = Civil(year: int, month: int, day: int, hour: int, minute: int)

  /** The local calendar date and time of `t` (`getFullYear`, `getMonth() + 1`,
      `getDate`, `getHours`, `getMinutes`). */
  function CivilOf(t: int): (c: Civil)
    ensures 1 <= c.month <= 12
    ensures 1 <= c.day <= 31
    ensures 0 <= c.hour < 24 && 0 <= c.minute < 60
  {
    var yo := YearAndOrdinal(1970, LocalDay(t));
    YearIsTwelveMonths(yo.0);
    var md := MonthAndDay(yo.0, 1, yo.1);
    var ms := TimeOfDay(t);
    Civil(yo.0, md.0, md.1, ms / HOUR, (ms % HOUR) / MINUTE)
  }

  /** The calendar date depends only on the local day. */
  lemma CivilDateOfDay(a: int, b: int)
    requires LocalDay(a) == LocalDay(b)
    ensures CivilOf(a).year == CivilOf(b).year
    ensures CivilOf(a).month == CivilOf(b).month
    ensures CivilOf(a).day == CivilOf(b).day
  {
  }

  // ---------------------------------------------------------------------
  // An independent day count, the partner of `CivilOf`

  /** Days from 1 January 1970 to 1 January of year `y` (negative before 1970). */
  function DaysBeforeYear(y: int): int
    decreases if y < 1970 then 1970 - y else y - 1970
  {
    if y == 1970 then 0
    else if y > 1970 then DaysBeforeYear(y - 1) + YearLength(y - 1)
    else DaysBeforeYear(y + 1) - YearLength(y)
  }

  /** Days of year `y` before the first of month `m`: the usual cumulative
      month table, one day more after February in a leap year. */
  function DaysBeforeMonth(y: int, m: int): int
    requires 1 <= m <= 12
  {
    [0, 31, 59, 90, 120, 151, 181, 212, 243, 273, 304, 334][m - 1] +
      (if m > 2 && IsLeapYear(y) then 1 else 0)
  }

  predicate IsValidDate(y: int, m: int, d: int)
  {
    1 <= m <= 12 && 1 <= d <= MonthLength(y, m)
  }

  /** Days from 1 January 1970 to the date `y-m-d`. */
  function DaysFromCivil(y: int, m: int, d: int): int
    requires 1 <= m <= 12
  {
    DaysBeforeYear(y) + DaysBeforeMonth(y, m) + d - 1
  }

  lemma DaysBeforeYearStep(y: int)
    ensures DaysBeforeYear(y + 1) == DaysBeforeYear(y) + YearLength(y)
  {
  }

  /** The year walk of `CivilOf` keeps the day count. */
  lemma {:induction false} YearAndOrdinalCounts(y: int, d: int)
    ensures var r := YearAndOrdinal(y, d); DaysBeforeYear(r.0) + r.1 == DaysBeforeYear(y) + d
    decreases if d < 0 then 1 else 0, if d < 0 then -d else d
  {
    if d < 0 {
      YearAndOrdinalCounts(y - 1, d + YearLength(y - 1));
      DaysBeforeYearStep(y - 1);
    } else if d >= YearLength(y) {
      YearAndOrdinalCounts(y + 1, d - YearLength(y));
      DaysBeforeYearStep(y);
    }
  }

  lemma MonthStep(y: int, m: int)
    requires 1 <= m < 12
    ensures DaysBeforeMonth(y, m + 1) == DaysBeforeMonth(y, m) + MonthLength(y, m)
  {
  }

  /** The month walk of `CivilOf` keeps the day count. */
  lemma {:induction false} MonthAndDayCounts(y: int, m: int, d: int)
    requires 1 <= m <= 12 && 0 <= d < DaysFromMonth(y, m)
    ensures var r := MonthAndDay(y, m, d); DaysBeforeMonth(y, r.0) + r.1 - 1 == DaysBeforeMonth(y, m) + d
    decreases 13 - m
  {
    if d >= MonthLength(y, m) {
      MonthAndDayCounts(y, m + 1, d - MonthLength(y, m));
      MonthStep(y, m);
    }
  }

  /** `CivilOf` is the inverse of the day count: it gives a real calendar
      date whose count is the local day of `t`, and the hour and minute of the
      local time of day. */
  lemma CivilOfInverse(t: int)
    ensures var c := CivilOf(t);
      IsValidDate(c.year, c.month, c.day) &&
      DaysFromCivil(c.year, c.month, c.day) == LocalDay(t) &&
      c.hour * HOUR + c.minute * MINUTE <= TimeOfDay(t) < c.hour * HOUR + c.minute * MINUTE + MINUTE
  {
    var yo := YearAndOrdinal(1970, LocalDay(t));
    YearAndOrdinalCounts(1970, LocalDay(t));
    YearIsTwelveMonths(yo.0);
    MonthAndDayCounts(yo.0, 1, yo.1);
    var ms := TimeOfDay(t);
    var rest := ms % HOUR;
    assert ms == (ms / HOUR) * HOUR + rest;
    assert rest == (rest / MINUTE) * MINUTE + rest % MINUTE;
  }

  lemma {:induction false} DaysBeforeYearMonotone(a: int, b: int)
    requires a < b
    ensures DaysBeforeYear(a) + YearLength(a) <= DaysBeforeYear(b)
    decreases b - a
  {
    DaysBeforeYearStep(a);
    if a + 1 < b {
      DaysBeforeYearMonotone(a + 1, b);
    }
  }

  lemma {:induction false} DaysBeforeMonthMonotone(y: int, a: int, b: int)
    requires 1 <= a < b <= 12
    ensures DaysBeforeMonth(y, a) + MonthLength(y, a) <= DaysBeforeMonth(y, b)
    decreases b - a
  {
    MonthStep(y, a);
    if a + 1 < b {
      DaysBeforeMonthMonotone(y, a + 1, b);
    }
  }

  /** A valid date's count falls inside its year. */
  lemma DayInYear(y: int, m: int, d: int)
    requires IsValidDate(y, m, d)
    ensures DaysBeforeYear(y) <= DaysFromCivil(y, m, d) < DaysBeforeYear(y) + YearLength(y)
  {
    if m < 12 {
      DaysBeforeMonthMonotone(y, m, 12);
    }
  }

  /** Distinct valid dates have distinct day counts. */
  lemma CivilUnique(y1: int, m1: int, d1: int, y2: int, m2: int, d2: int)
    requires IsValidDate(y1, m1, d1) && IsValidDate(y2, m2, d2)
    requires DaysFromCivil(y1, m1, d1) == DaysFromCivil(y2, m2, d2)
    ensures y1 == y2 && m1 == m2 && d1 == d2
  {
    DayInYear(y1, m1, d1);
    DayInYear(y2, m2, d2);
    if y1 < y2 {
      DaysBeforeYearMonotone(y1, y2);
    } else if y2 < y1 {
      DaysBeforeYearMonotone(y2, y1);
    }
    if m1 < m2 {
      DaysBeforeMonthMonotone(y1, m1, m2);
    } else if m2 < m1 {
      DaysBeforeMonthMonotone(y1, m2, m1);
    }
  }

  /** The date fields of `CivilOf(t)` are exactly the valid date whose day
      count is the local day of `t`. */
  lemma CivilOfCharacterised(t: int, y: int, m: int, d: int)
    requires IsValidDate(y, m, d)
    ensures (CivilOf(t).year == y && CivilOf(t).month == m && CivilOf(t).day == d) <==>
      DaysFromCivil(y, m, d) == LocalDay(t)
  {
    var c := CivilOf(t);
    CivilOfInverse(t);
    if DaysFromCivil(y, m, d) == LocalDay(t) {
      CivilUnique(y, m, d, c.year, c.month, c.day);
    }
  }

  /** The epoch is 21:00 on 31 December 1969 in local time. */
  lemma EpochIsNewYearsEve()
    ensures CivilOf(0) == Civil(1969, 12, 31, 21, 0)
  {
    CivilOfCharacterised(0, 1969, 12, 31);
  }

  /** Between 1970 and 2100 every fourth year is a leap year. */
  lemma {:induction false} DaysBeforeYearUntil2100(y: int)
    requires 1970 <= y <= 2100
    ensures DaysBeforeYear(y) == (y - 1970) * 365 + (y - 1969) / 4
    decreases y - 1970
  {
    if y > 1970 {
      DaysBeforeYearUntil2100(y - 1);
      assert IsLeapYear(y - 1) <==> (y - 1969) % 4 == 0;
    }
  }

  /** 2000-02-29T15:00Z is noon of the leap day 29 February 2000 locally. */
  lemma LeapDay2000(t: int)
    requires t == 951_836_400_000
    ensures CivilOf(t) == Civil(2000, 2, 29, 12, 0)
  {
    assert LocalDay(t) == 11016 && TimeOfDay(t) == 12 * HOUR;
    DaysBeforeYearUntil2100(2000);
    assert DaysFromCivil(2000, 2, 29) == 11016;
    CivilOfCharacterised(t, 2000, 2, 29);
  }

  /** `String(year)`. */
  function YearText(y: int): string
  {
    if y >= 0 then Decimal(y) else "-" + Decimal(-y)
  }

  /** formatarData: `DD/MM/YYYY`. */
  function FormatDate(t: int): (r: string)
    ensures |r| >= 7 && r[2] == '/' && r[5] == '/'
    ensures AllDigits(r[..2]) && ParseDecimal(r[..2]) == CivilOf(t).day
    ensures AllDigits(r[3..5]) && ParseDecimal(r[3..5]) == CivilOf(t).month
    ensures r[6..] == YearText(CivilOf(t).year)
  {
    var c := CivilOf(t);
    var r := Pad2(c.day) + "/" + Pad2(c.month) + "/" + YearText(c.year);
    assert r[..2] == Pad2(c.day);
    assert r[3..5] == Pad2(c.month);
    r
  }

  /** formatarDataHora: `DD/MM/YYYY HH:mm`. */
  function FormatDateTime(t: int): (r: string)
    ensures |r| == |FormatDate(t)| + 6
    ensures r[..|FormatDate(t)|] == FormatDate(t)
    ensures r[|r| - 6] == ' ' && r[|r| - 3] == ':'
    ensures AllDigits(r[|r| - 5..|r| - 3]) && ParseDecimal(r[|r| - 5..|r| - 3]) == CivilOf(t).hour
    ensures AllDigits(r[|r| - 2..]) && ParseDecimal(r[|r| - 2..]) == CivilOf(t).minute
  {
    var c := CivilOf(t);
    var d, h, m := FormatDate(t), Pad2(c.hour), Pad2(c.minute);
    TimeSuffix(d, h, m);
    d + " " + h + ":" + m
  }

  /** Where the pieces of `date HH:mm` sit in the joined text. */
  lemma TimeSuffix(d: string, h: string, m: string)
    requires |h| == 2 && |m| == 2
    ensures var r := d + " " + h + ":" + m;
      |r| == |d| + 6 && r[..|d|] == d && r[|r| - 6] == ' ' && r[|r| - 3] == ':' &&
      r[|r| - 5..|r| - 3] == h && r[|r| - 2..] == m
  {
    var r := d + " " + h + ":" + m;
    assert r[|r| - 5..|r| - 3] == h;
    assert r[|r| - 2..] == m;
  }

  /** The date text names the local day only: every instant of a day formats
      like its midnight. */
  lemma FormatDateOfDay(t: int)
    ensures FormatDate(t) == FormatDate(StartOfDay(t))
  {
    CivilDateOfDay(t, StartOfDay(t));
  }
}

=== FILE: invitationlinks.dfy ===
/** Invitation links (invitation-links.service.ts) as a sequential state
    machine over the link store, the visitor store and the advisory cache of
    link snapshots. Every operation is one atomic step; the clock is `now`. */
module InvitationLinks {
  import opened Wrappers
  import opened Store
  import Dates
  import Text
  import Validation
  import AccessCode
  import V = Visitors

  datatype Link = Link(
    id: Id,
    residentId: Id,
    token: string,
    visitorsValidUntil: int,
    accessSchedule: string,
    maxVisitors: int,
    registeredVisitors: int,
    expiresAt: int,
    revoked: bool,
    createdAt: int)

  /** What the cache keeps for a link: every field findByToken checks except
      `revoked`. */
  datatype Snapshot = Snapshot(
    residentId: Id,
    visitorsValidUntil: int,
    accessSchedule: string,
    maxVisitors: int,
    registeredVisitors: int,
    expiresAt: int)

  /** Links are kept under their token, the key every lookup uses. */
  datatype State = State(links: map<string, Link>, visitors: V.Visitors, cache: map<string, Snapshot>)

  /** portalCliente.links: hours until a link expires, and the public base URL. */
  datatype Config = Config(expirationHours: int, baseUrl: string)

  datatype Error = PastValidity | TokenTaken | NotFound | Revoked | Expired | LimitReached | InvalidDocument

  const DefaultMaxVisitors: int := 5
  const MinVisitorsPerLink: int := 1
  const MaxVisitorsPerLink: int := 50
  /** Links older than this many days are deleted by the sweep. */
  const CleanupDays: int := 7

  function Snap(l: Link): Snapshot
  {
    Snapshot(l.residentId, l.visitorsValidUntil, l.accessSchedule, l.maxVisitors, l.registeredVisitors, l.expiresAt)
  }

  /** The state invariant:
      - every link sits under its own token and link ids are unique;
      - every counter is between 0 and a capacity of at least 1;
      - every link expires `expirationHours` after its creation;
      - the cache only holds tokens of stored, unrevoked links, and their
        current snapshot. */
  predicate Inv(st: State, cfg: Config)
  {
    (forall t :: t in st.links ==> st.links[t].token == t) &&
    (forall a, b :: a in st.links && b in st.links && a != b ==> st.links[a].id != st.links[b].id) &&
    (forall t :: t in st.links ==>
      1 <= st.links[t].maxVisitors && 0 <= st.links[t].registeredVisitors <= st.links[t].maxVisitors) &&
    (forall t :: t in st.links ==>
      st.links[t].expiresAt == Dates.AddHours(st.links[t].createdAt, cfg.expirationHours)) &&
    (forall t :: t in st.cache ==>
      t in st.links && !st.links[t].revoked && st.cache[t] == Snap(st.links[t]))
  }

  /** The visitors that registered through the link with id `linkId`. */
  function RegisteredThrough(vs: V.Visitors, linkId: Id): set<Id>
  {
    set v | v in vs && vs[v].invitationLinkId == Some(linkId)
  }

  /** Each link's counter is the number of visitors registered through it. */
  predicate Counted(st: State)
  {
    forall t :: t in st.links ==>
      |RegisteredThrough(st.visitors, st.links[t].id)| == st.links[t].registeredVisitors
  }

  // ---------------------------------------------------------------------
  // create

  datatype NewLink = NewLink(visitorsValidUntil: int, accessSchedule: Option<string>, maxVisitors: Option<int>)

  /** The request bounds on `maxVisitantes`. */
  predicate ValidRequest(input: NewLink)
  {
    input.maxVisitors.Some? ==> MinVisitorsPerLink <= input.maxVisitors.value <= MaxVisitorsPerLink
  }

  /** A generated id no link has and no visitor refers to. */
  predicate FreshLinkId(st: State, id: Id)
  {
    (forall t :: t in st.links ==> st.links[t].id != id) &&
    (forall v :: v in st.visitors ==> st.visitors[v].invitationLinkId != Some(id))
  }

  datatype Created = Created(state: State, link: Link, url: string)

  function Create(st: State, cfg: Config, residentId: Id, input: NewLink, id: Id,
                  random: seq<Text.byte>, now: int): (r: Result<Created, Error>)
    requires |random| == 32 && ValidRequest(input) && FreshLinkId(st, id)
    ensures !Validation.IsNotPastDate(input.visitorsValidUntil, now) ==> r == Err(PastValidity)
    ensures r.Ok? <==>
      Validation.IsNotPastDate(input.visitorsValidUntil, now) && AccessCode.LinkToken(random) !in st.links
    ensures r.Ok? ==>
      var (token, l) := (AccessCode.LinkToken(random), r.value.link);
      l.id == id && l.token == token && l.residentId == residentId &&
      l.visitorsValidUntil == input.visitorsValidUntil &&
      l.maxVisitors == input.maxVisitors.GetOr(DefaultMaxVisitors) &&
      MinVisitorsPerLink <= l.maxVisitors <= MaxVisitorsPerLink &&
      l.registeredVisitors == 0 && !l.revoked && l.createdAt == now &&
      l.expiresAt == now + cfg.expirationHours * Dates.HOUR &&
      l.accessSchedule == (if Truthy(input.accessSchedule) then input.accessSchedule.value else V.DefaultSchedule) &&
      r.value.state == State(st.links[token := l], st.visitors, st.cache[token := Snap(l)]) &&
      r.value.url == cfg.baseUrl + "/convite/" + token &&
      r.value.url[|cfg.baseUrl| + 9..] == token
  {
    if !Validation.IsNotPastDate(input.visitorsValidUntil, now) then
      Err(PastValidity)
    else
      var token := AccessCode.LinkToken(random);
      if token in st.links then
        Err(TokenTaken)
      else
        var max := if input.maxVisitors.Some? && input.maxVisitors.value != 0 then input.maxVisitors.value else DefaultMaxVisitors;
        var l := Link(
          id, residentId, token, input.visitorsValidUntil,
          if Truthy(input.accessSchedule) then input.accessSchedule.value else V.DefaultSchedule,
          max, 0, Dates.AddHours(now, cfg.expirationHours), false, now);
        Ok(Created(State(st.links[token := l], st.visitors, st.cache[token := Snap(l)]), l,
                   cfg.baseUrl + "/convite/" + token))
  }

  // ---------------------------------------------------------------------
  // findByToken

  /** The data findByToken checks: the cached snapshot, which carries no
      revoked flag, or else the stored link. */
  function Lookup(st: State, token: string): Option<(Snapshot, bool)>
  {
    if token in st.cache then Some((st.cache[token], false))
    else if token in st.links then Some((Snap(st.links[token]), st.links[token].revoked))
    else None
  }

  /** findByToken: NotFound, then revoked, then expired, then full; the first
      failure wins. It reads the state and changes nothing. */
  function FindByToken(st: State, token: string, now: int): (r: Result<Snapshot, Error>)
    ensures r == Err(NotFound) <==> token !in st.cache && token !in st.links
    ensures Lookup(st, token).Some? ==>
      var (s, revoked) := Lookup(st, token).value;
      (r == Err(Revoked) <==> revoked) &&
      (r == Err(Expired) <==> !revoked && Dates.IsExpired(s.expiresAt, now)) &&
      (r == Err(LimitReached) <==> !revoked && !Dates.IsExpired(s.expiresAt, now) && s.registeredVisitors >= s.maxVisitors) &&
      (r.Ok? <==> !revoked && !Dates.IsExpired(s.expiresAt, now) && s.registeredVisitors < s.maxVisitors) &&
      (r.Ok? ==> r.value == s)
  {
    match Lookup(st, token)
    case None => Err(NotFound)
    case Some((s, revoked)) =>
      if revoked then Err(Revoked)
      else if Dates.IsExpired(s.expiresAt, now) then Err(Expired)
      else if s.registeredVisitors >= s.maxVisitors then Err(LimitReached)
      else Ok(s)
  }

  /** Under the invariant the cache is transparent: findByToken answers as it
      would from the store alone. */
  lemma CacheTransparent(st: State, cfg: Config, token: string, now: int)
    requires Inv(st, cfg)
    ensures FindByToken(st, token, now) == FindByToken(st.(cache := map[]), token, now)
  {
  }

  /** Losing a cache entry (expiry, eviction) keeps the invariant and changes
      no answer. */
  function EvictCache(st: State, token: string): (r: State)
    ensures r.links == st.links && r.visitors == st.visitors && r.cache.Keys == st.cache.Keys - {token}
    ensures forall t :: t in r.cache ==> r.cache[t] == st.cache[t]
  {
    st.(cache := st.cache - {token})
  }

  lemma EvictionIsHarmless(st: State, cfg: Config, token: string, other: string, now: int)
    requires Inv(st, cfg)
    ensures Inv(EvictCache(st, token), cfg) && Counted(EvictCache(st, token)) == Counted(st)
    ensures FindByToken(EvictCache(st, token), other, now) == FindByToken(st, other, now)
  {
    CacheTransparent(st, cfg, other, now);
    CacheTransparent(EvictCache(st, token), cfg, other, now);
  }

  // ---------------------------------------------------------------------
  // cadastrarVisitante

  datatype Registration = Registration(name: string, document: string, phone: Option<string>)

  function Register(st: State, token: string, input: Registration, visitorId: Id, now: int): (r: Result<State, Error>)
    requires visitorId !in st.visitors
    ensures FindByToken(st, token, now).Err? ==> r == Err(FindByToken(st, token, now).error)
    ensures FindByToken(st, token, now).Ok? && token !in st.links ==> r == Err(NotFound)
    ensures r.Ok? <==>
      FindByToken(st, token, now).Ok? && token in st.links && Validation.IsValidCpf(input.document)
    ensures r.Ok? ==>
      var l := st.links[token];
      var l' := l.(registeredVisitors := l.registeredVisitors + 1);
      r.value.links == st.links[token := l'] &&
      visitorId in r.value.visitors &&
      var v := r.value.visitors[visitorId];
      r.value.visitors == st.visitors[visitorId := v] &&
      r.value.cache == st.cache[token := Snap(l')] &&
      v.id == visitorId && v.residentId == l.residentId && v.validUntil == l.visitorsValidUntil &&
      v.accessSchedule == l.accessSchedule && v.registeredViaLink && v.active &&
      v.invitationLinkId == Some(l.id) && v.notes.None? && v.createdAt == now &&
      v.name == input.name && v.phone == input.phone &&
      v.document == Validation.CleanDocument(input.document) &&
      |v.document| == 11 && Validation.IsValidCpf(v.document)
  {
    var _ :- FindByToken(st, token, now);
    if token !in st.links then Err(NotFound)
    else if !Validation.IsValidCpf(input.document) then Err(InvalidDocument)
    else
      var l := st.links[token];
      V.CleanedCpf(input.document);
      var v := V.Visitor(
        visitorId, l.residentId, input.name, Validation.CleanDocument(input.document), input.phone,
        l.visitorsValidUntil, l.accessSchedule, None, true, Some(l.id), true, now);
      var l' := l.(registeredVisitors := l.registeredVisitors + 1);
      Ok(State(st.links[token := l'], st.visitors[visitorId := v], st.cache[token := Snap(l')]))
  }

  // ---------------------------------------------------------------------
  // revogar

  /** The tokens of the links with this id that belong to this resident. */
  function Owned(st: State, id: Id, residentId: Id): set<string>
  {
    set t | t in st.links && st.links[t].id == id && st.links[t].residentId == residentId
  }

  /** Sets the revoked flag of the links under `e` and drops them from the
      cache; revocation and the first pass of the sweep both do this. */
  function MarkRevoked(st: State, e: set<string>): State
  {
    State(
      map t | t in st.links :: if t in e then st.links[t].(revoked := true) else st.links[t],
      st.visitors,
      st.cache - e)
  }

  function Revoke(st: State, id: Id, residentId: Id): (r: Result<State, Error>)
    ensures r == Err(NotFound) <==> Owned(st, id, residentId) == {}
    ensures r.Ok? ==>
      var owned := Owned(st, id, residentId);
      r.value.visitors == st.visitors && r.value.links.Keys == st.links.Keys &&
      r.value.cache == st.cache - owned &&
      (forall t :: t in st.links ==>
        r.value.links[t] == if t in owned then st.links[t].(revoked := true) else st.links[t])
  {
    var owned := Owned(st, id, residentId);
    if owned == {} then Err(NotFound)
    else Ok(MarkRevoked(st, owned))
  }

  /** With unique ids a resident's link id names at most one link. */
  lemma OwnedIsSingle(st: State, cfg: Config, id: Id, residentId: Id, t: string)
    requires Inv(st, cfg) && t in Owned(st, id, residentId)
    ensures Owned(st, id, residentId) == {t}
  {
  }

  /** Revoking twice is revoking once. */
  lemma RevokeIdempotent(st: State, id: Id, residentId: Id)
    requires Revoke(st, id, residentId).Ok?
    ensures var once := Revoke(st, id, residentId).value;
      Revoke(once, id, residentId) == Ok(once)
  {
    var once := Revoke(st, id, residentId).value;
    assert Owned(once, id, residentId) == Owned(st, id, residentId);
    var twice := Revoke(once, id, residentId).value;
    assert twice.links == once.links;
    assert twice.cache == once.cache;
    assert twice == once;
  }

  /** After revocation the link's token is refused as revoked, whatever the
      clock says. */
  lemma RevokedThenRefused(st: State, cfg: Config, id: Id, residentId: Id, t: string, now: int)
    requires Inv(st, cfg) && t in Owned(st, id, residentId)
    ensures Revoke(st, id, residentId).Ok?
    ensures FindByToken(Revoke(st, id, residentId).value, t, now) == Err(Revoked)
  {
  }

  // ---------------------------------------------------------------------
  // findAllByMorador

  /** The resident's links (their tokens), newest first, revoked ones included. */
  method FindAllByResident(st: State, residentId: Id) returns (tokens: seq<string>)
    ensures forall i :: 0 <= i < |tokens| ==> tokens[i] in st.links && st.links[tokens[i]].residentId == residentId
    ensures forall t :: t in st.links && st.links[t].residentId == residentId ==> t in tokens
    ensures Distinct(tokens)
    ensures forall i, j :: 0 <= i < j < |tokens| ==>
      st.links[tokens[i]].createdAt >= st.links[tokens[j]].createdAt
  {
    tokens := Select(st.links, (l: Link) => l.residentId == residentId, (l: Link) => -l.createdAt);
  }

  // ---------------------------------------------------------------------
  // expirarLinksAntigos

  /** Tokens of unrevoked links whose expiry is strictly before `now`. */
  function ExpiredTokens(st: State, now: int): set<string>
  {
    set t | t in st.links && Dates.IsExpired(st.links[t].expiresAt, now) && !st.links[t].revoked
  }

  /** First pass: revoke and un-cache every expired link. */
  function RevokeExpired(st: State, now: int): State
  {
    MarkRevoked(st, ExpiredTokens(st, now))
  }

  /** `now` minus the cleanup period. */
  function CleanupLimit(now: int): int
  {
    Dates.AddDays(now, -CleanupDays)
  }

  /** Second pass: delete every link created before the cleanup limit,
      revoked or not. The cache is not touched. */
  function PurgeOld(st: State, now: int): State
  {
    st.(links := map t | t in st.links && !(st.links[t].createdAt < CleanupLimit(now)) :: st.links[t])
  }

  function Sweep(st: State, now: int): (r: State)
    ensures r.visitors == st.visitors
    ensures r.links.Keys == set t | t in st.links && st.links[t].createdAt >= now - CleanupDays * Dates.DAY
    ensures forall t :: t in r.links ==>
      r.links[t] == st.links[t].(revoked := st.links[t].revoked || st.links[t].expiresAt < now)
    ensures forall t :: t in r.cache <==> t in st.cache && t !in ExpiredTokens(st, now)
    ensures forall t :: t in r.cache ==> r.cache[t] == st.cache[t]
  {
    PurgeOld(RevokeExpired(st, now), now)
  }

  /** After a sweep no stored link is expired yet unrevoked. */
  lemma SweepLeavesNoLiveExpired(st: State, now: int)
    ensures forall t :: t in Sweep(st, now).links && Sweep(st, now).links[t].expiresAt < now ==>
      Sweep(st, now).links[t].revoked
  {
  }

  /** Sweeping again at the same instant changes nothing. */
  lemma SweepIdempotent(st: State, now: int)
    ensures Sweep(Sweep(st, now), now) == Sweep(st, now)
  {
    var once := Sweep(st, now);
    var twice := Sweep(once, now);
    assert ExpiredTokens(once, now) == {};
    assert twice.links == once.links;
    assert twice.cache == once.cache;
  }

  // ---------------------------------------------------------------------
  // The invariants hold after every operation

  lemma CreatePreservesInv(st: State, cfg: Config, residentId: Id, input: NewLink, id: Id,
                           random: seq<Text.byte>, now: int)
    requires |random| == 32 && ValidRequest(input) && FreshLinkId(st, id)
    requires Inv(st, cfg) && Counted(st)
    requires Create(st, cfg, residentId, input, id, random, now).Ok?
    ensures Inv(Create(st, cfg, residentId, input, id, random, now).value.state, cfg)
    ensures Counted(Create(st, cfg, residentId, input, id, random, now).value.state)
  {
    var c := Create(st, cfg, residentId, input, id, random, now).value;
    var l := c.link;
    assert l.expiresAt == Dates.AddHours(l.createdAt, cfg.expirationHours);
    InsertKeepsInv(st, cfg, l, c.state);
    InsertKeepsCounted(st, l, c.state);
  }

  /** Storing and caching a fresh, unrevoked, empty link under a new token
      keeps the invariant. */
  lemma InsertKeepsInv(st: State, cfg: Config, l: Link, after: State)
    requires Inv(st, cfg) && l.token !in st.links && !l.revoked
    requires forall t :: t in st.links ==> st.links[t].id != l.id
    requires 1 <= l.maxVisitors && 0 <= l.registeredVisitors <= l.maxVisitors
    requires l.expiresAt == Dates.AddHours(l.createdAt, cfg.expirationHours)
    requires after.links == st.links[l.token := l] && after.cache == st.cache[l.token := Snap(l)]
    ensures Inv(after, cfg)
  {
    forall t | t in after.links
      ensures after.links[t].token == t
      ensures 1 <= after.links[t].maxVisitors
      ensures 0 <= after.links[t].registeredVisitors <= after.links[t].maxVisitors
      ensures after.links[t].expiresAt == Dates.AddHours(after.links[t].createdAt, cfg.expirationHours)
    {
      if t != l.token {
        assert after.links[t] == st.links[t];
      }
    }
    forall a, b | a in after.links && b in after.links && a != b
      ensures after.links[a].id != after.links[b].id
    {
      if a != l.token && b != l.token {
        assert after.links[a] == st.links[a] && after.links[b] == st.links[b];
      }
    }
    forall t | t in after.cache
      ensures t in after.links && !after.links[t].revoked && after.cache[t] == Snap(after.links[t])
    {
      if t != l.token {
        assert t in st.cache && after.cache[t] == st.cache[t] && after.links[t] == st.links[t];
      }
    }
  }

  /** A new link with a zero counter and an id no visitor refers to keeps
      every counter exact. */
  lemma InsertKeepsCounted(st: State, l: Link, after: State)
    requires Counted(st) && l.token !in st.links && l.registeredVisitors == 0
    requires forall v :: v in st.visitors ==> st.visitors[v].invitationLinkId != Some(l.id)
    requires after.links == st.links[l.token := l] && after.visitors == st.visitors
    ensures Counted(after)
  {
    assert RegisteredThrough(st.visitors, l.id) == {};
    forall t | t in after.links
      ensures |RegisteredThrough(after.visitors, after.links[t].id)| == after.links[t].registeredVisitors
    {
      if t != l.token {
        assert after.links[t] == st.links[t];
      }
    }
  }

  /** The new visitor is the only one added to the link's set. */
  lemma RegisteredThroughGrows(vs: V.Visitors, visitorId: Id, v: V.Visitor, linkId: Id)
    requires visitorId !in vs
    ensures RegisteredThrough(vs[visitorId := v], linkId) ==
      if v.invitationLinkId == Some(linkId) then RegisteredThrough(vs, linkId) + {visitorId}
      else RegisteredThrough(vs, linkId)
    ensures v.invitationLinkId == Some(linkId) ==>
      |RegisteredThrough(vs[visitorId := v], linkId)| == |RegisteredThrough(vs, linkId)| + 1
  {
  }

  lemma RegisterPreservesInv(st: State, cfg: Config, token: string, input: Registration, visitorId: Id, now: int)
    requires visitorId !in st.visitors
    requires Inv(st, cfg) && Counted(st)
    requires Register(st, token, input, visitorId, now).Ok?
    ensures Inv(Register(st, token, input, visitorId, now).value, cfg)
    ensures Counted(Register(st, token, input, visitorId, now).value)
  {
    var after := Register(st, token, input, visitorId, now).value;
    var l := st.links[token];
    var l' := l.(registeredVisitors := l.registeredVisitors + 1);
    assert after.links == st.links[token := l'] && after.cache == st.cache[token := Snap(l')];
    CacheTransparent(st, cfg, token, now);
    assert FindByToken(st.(cache := map[]), token, now).Ok?;
    assert !l.revoked && l.registeredVisitors < l.maxVisitors;
    RegisterKeepsInv(st, cfg, token, l', after);
    RegisterKeepsCounted(st, token, l', visitorId, after);
  }

  /** Adding one visitor registered through a link, and bumping that link's
      counter, keeps every counter exact. */
  lemma RegisterKeepsCounted(st: State, token: string, l': Link, visitorId: Id, after: State)
    requires Counted(st) && token in st.links && visitorId !in st.visitors
    requires forall a, b :: a in st.links && b in st.links && a != b ==> st.links[a].id != st.links[b].id
    requires l' == st.links[token].(registeredVisitors := st.links[token].registeredVisitors + 1)
    requires after.links == st.links[token := l'] && visitorId in after.visitors
    requires after.visitors == st.visitors[visitorId := after.visitors[visitorId]]
    requires after.visitors[visitorId].invitationLinkId == Some(st.links[token].id)
    ensures Counted(after)
  {
    forall t | t in after.links
      ensures |RegisteredThrough(after.visitors, after.links[t].id)| == after.links[t].registeredVisitors
    {
      RegisteredThroughGrows(st.visitors, visitorId, after.visitors[visitorId], st.links[t].id);
      if t != token {
        assert st.links[t].id != st.links[token].id;
      }
    }
  }

  /** Bumping one unrevoked link's counter below its capacity, and caching
      its new snapshot, keeps the invariant. */
  lemma RegisterKeepsInv(st: State, cfg: Config, token: string, l': Link, after: State)
    requires Inv(st, cfg) && token in st.links && !st.links[token].revoked
    requires l' == st.links[token].(registeredVisitors := st.links[token].registeredVisitors + 1)
    requires st.links[token].registeredVisitors < st.links[token].maxVisitors
    requires after.links == st.links[token := l'] && after.cache == st.cache[token := Snap(l')]
    ensures Inv(after, cfg)
  {
    forall t | t in after.links
      ensures after.links[t].token == t && after.links[t].id == st.links[t].id
      ensures 1 <= after.links[t].maxVisitors
      ensures 0 <= after.links[t].registeredVisitors <= after.links[t].maxVisitors
      ensures after.links[t].createdAt == st.links[t].createdAt
      ensures after.links[t].expiresAt == st.links[t].expiresAt
    {
    }
    forall t | t in after.cache
      ensures t in after.links && !after.links[t].revoked && after.cache[t] == Snap(after.links[t])
    {
    }
  }

  lemma RevokePreservesInv(st: State, cfg: Config, id: Id, residentId: Id)
    requires Inv(st, cfg) && Counted(st)
    requires Revoke(st, id, residentId).Ok?
    ensures Inv(Revoke(st, id, residentId).value, cfg)
    ensures Counted(Revoke(st, id, residentId).value)
  {
    MarkRevokedKeepsInv(st, cfg, Owned(st, id, residentId));
  }

  /** Revoking any set of links keeps both invariants: only the revoked
      flags change, and the cache loses exactly the revoked tokens. */
  lemma MarkRevokedKeepsInv(st: State, cfg: Config, e: set<string>)
    requires Inv(st, cfg) && Counted(st)
    ensures Inv(MarkRevoked(st, e), cfg) && Counted(MarkRevoked(st, e))
  {
    var after := MarkRevoked(st, e);
    forall t | t in after.links
      ensures after.links[t].token == t && after.links[t].id == st.links[t].id
      ensures 1 <= after.links[t].maxVisitors
      ensures 0 <= after.links[t].registeredVisitors <= after.links[t].maxVisitors
      ensures after.links[t].expiresAt == Dates.AddHours(after.links[t].createdAt, cfg.expirationHours)
      ensures |RegisteredThrough(after.visitors, after.links[t].id)| == after.links[t].registeredVisitors
    {
    }
    forall a, b | a in after.links && b in after.links && a != b
      ensures after.links[a].id != after.links[b].id
    {
    }
    forall t | t in after.cache
      ensures t in after.links && !after.links[t].revoked && after.cache[t] == Snap(after.links[t])
    {
      assert t in st.cache && t !in e;
    }
  }

  /** The sweep keeps the invariant as long as links expire within the
      cleanup period: a link old enough to be deleted is then already
      expired, so the first pass has taken it out of the cache. */
  lemma SweepPreservesInv(st: State, cfg: Config, now: int)
    requires Inv(st, cfg) && Counted(st)
    requires cfg.expirationHours <= CleanupDays * 24
    ensures Inv(Sweep(st, now), cfg)
    ensures Counted(Sweep(st, now))
  {
    var mid := RevokeExpired(st, now);
    MarkRevokedKeepsInv(st, cfg, ExpiredTokens(st, now));
    forall t | t in mid.cache
      ensures !Dates.IsExpired(mid.links[t].expiresAt, now)
    {
      assert t in st.cache && t !in ExpiredTokens(st, now);
    }
    PurgeKeepsInv(mid, cfg, now);
  }

  /** Deleting the links created before the cleanup limit keeps both
      invariants when no cached link has expired and links expire within the
      cleanup period: every cached link is then too young to be deleted. */
  lemma PurgeKeepsInv(st: State, cfg: Config, now: int)
    requires Inv(st, cfg) && Counted(st)
    requires cfg.expirationHours <= CleanupDays * 24
    requires forall t :: t in st.cache ==> !Dates.IsExpired(st.links[t].expiresAt, now)
    ensures Inv(PurgeOld(st, now), cfg) && Counted(PurgeOld(st, now))
  {
    var after := PurgeOld(st, now);
    forall t | t in after.links
      ensures after.links[t] == st.links[t]
    {
    }
    forall t | t in after.cache
      ensures t in after.links
    {
      var l := st.links[t];
      assert l.expiresAt == l.createdAt + cfg.expirationHours * Dates.HOUR;
      assert cfg.expirationHours * Dates.HOUR <= CleanupDays * Dates.DAY;
      assert l.createdAt >= CleanupLimit(now);
    }
  }

  /** Visitors registered through a link never outnumber its capacity. */
  lemma CapacityRespected(st: State, cfg: Config, t: string)
    requires Inv(st, cfg) && Counted(st) && t in st.links
    ensures |RegisteredThrough(st.visitors, st.links[t].id)| <= st.links[t].maxVisitors
  {
  }

  /** Registration keeps every stored visitor well-formed. */
  lemma RegisterKeepsVisitorsValid(st: State, token: string, input: Registration, visitorId: Id, now: int)
    requires visitorId !in st.visitors && V.Valid(st.visitors)
    requires Register(st, token, input, visitorId, now).Ok?
    ensures V.Valid(Register(st, token, input, visitorId, now).value.visitors)
  {
  }

  /** A single-use link: right after creation it admits one visitor, and
      then refuses the next as full. */
  lemma SingleUseLink(st: State, cfg: Config, residentId: Id, input: NewLink, id: Id,
                      random: seq<Text.byte>, now: int,
                      guest: Registration, v1: Id, v2: Id)
    requires |random| == 32 && FreshLinkId(st, id) && Inv(st, cfg) && cfg.expirationHours >= 0
    requires input.maxVisitors == Some(1)
    requires Create(st, cfg, residentId, input, id, random, now).Ok?
    requires Validation.IsValidCpf(guest.document)
    requires v1 !in st.visitors && v2 !in st.visitors && v1 != v2
    ensures var c := Create(st, cfg, residentId, input, id, random, now).value;
      Register(c.state, c.link.token, guest, v1, now).Ok? &&
      Register(Register(c.state, c.link.token, guest, v1, now).value, c.link.token, guest, v2, now) ==
        Err(LimitReached)
  {
    var c := Create(st, cfg, residentId, input, id, random, now).value;
    var s1 := Register(c.state, c.link.token, guest, v1, now);
    assert s1.Ok?;
    assert v2 !in s1.value.visitors;
  }
}

=== FILE: operators.dfy ===
/** Operators and technicians (operators.service.ts), kept in the same
    collection as every other portal user. */
module Operators {
  import opened Wrappers
  import opened Store
  import U = Users

  type Users = U.Users
  type User = U.User

  datatype Error = EmailInUse | NotFound

  /** The permissions an operator gets when the request carries none. */
  const DefaultPermissions: U.Permissions :=
    U.Permissions(Some(false), Some(true), Some(true), Some(false), Some(true))

  predicate IsStaff(t: U.UserType)
  {
    t == U.Operator || t == U.Technician
  }

  /** The user's own condominium, or one assigned to it. */
  predicate Serves(u: User, condominiumId: Id)
  {
    u.condominiumId == condominiumId || condominiumId in u.assignedCondominiums
  }

  /** findOne's query: an active operator or technician serving the condominium. */
  predicate InScope(u: User, condominiumId: Id)
  {
    u.active && IsStaff(u.userType) && Serves(u, condominiumId)
  }

  function FindOne(us: Users, id: Id, condominiumId: Id): (r: Result<User, Error>)
    ensures r.Ok? <==> id in us && InScope(us[id], condominiumId)
    ensures r.Ok? ==> r.value == us[id]
    ensures r.Err? ==> r.error == NotFound
  {
    if id in us && InScope(us[id], condominiumId) then Ok(us[id]) else Err(NotFound)
  }

  /** The optional filters of findAll. */
  datatype Filters = Filters(condominiumId: Option<Id>, userType: Option<U.UserType>)

  /** findAll's query. A given user type replaces the operator-or-technician
      restriction instead of narrowing it. */
  predicate Listed(u: User, f: Filters)
  {
    u.active &&
    (if f.userType.Some? then u.userType == f.userType.value else IsStaff(u.userType)) &&
    (Truthy(f.condominiumId) ==> Serves(u, f.condominiumId.value))
  }

  function ListedIds(us: Users, f: Filters): set<Id>
  {
    set k | k in us && Listed(us[k], f)
  }

  method FindAll(us: Users, f: Filters) returns (ids: seq<Id>)
    ensures forall i :: 0 <= i < |ids| ==> ids[i] in ListedIds(us, f)
    ensures forall k :: k in ListedIds(us, f) ==> k in ids
    ensures Distinct(ids)
    ensures forall i, j :: 0 <= i < j < |ids| ==> us[ids[i]].createdAt >= us[ids[j]].createdAt
  {
    ids := Select(us, (u: User) => Listed(u, f), (u: User) => -u.createdAt);
  }

  /** Without a type filter, findAll lists exactly the in-scope staff of
      the condominium that findOne would return. */
  lemma ListingAgreesWithFindOne(us: Users, condominiumId: Id, id: Id)
    requires |condominiumId| > 0
    ensures id in ListedIds(us, Filters(Some(condominiumId), None)) <==>
      FindOne(us, id, condominiumId).Ok?
  {
  }

  /** Some user, in any condominium, other than `except` has this email. */
  predicate EmailUsed(us: Users, email: string, except: Option<Id>)
  {
    exists k :: k in us && Some(k) != except && us[k].email == email
  }

  /** No two users anywhere share an email. */
  predicate EmailsUnique(us: Users)
  {
    forall a, b :: a in us && b in us && a != b ==> us[a].email != us[b].email
  }

  datatype NewOperator = NewOperator(
    name: string,
    email: string,
    password: string,
    userType: U.UserType,
    phone: Option<string>,
    document: Option<string>,
    permissions: Option<U.Permissions>,
    assignedCondominiums: Option<seq<Id>>)

  function Create(us: Users, condominiumId: Id, input: NewOperator, id: Id, passwordHash: string, now: int): (r: Result<Users, Error>)
    requires id !in us
    ensures r == Err(EmailInUse) <==> EmailUsed(us, input.email, None)
    ensures r.Ok? <==> !EmailUsed(us, input.email, None)
    ensures r.Ok? ==>
      r.value.Keys == us.Keys + {id} && (forall k :: k in us ==> r.value[k] == us[k])
    ensures r.Ok? ==>
      var u := r.value[id];
      u.id == id && u.condominiumId == condominiumId && u.email == input.email &&
      u.name == input.name && u.passwordHash == passwordHash &&
      u.phone == input.phone && u.document == input.document && u.unit.None? &&
      u.userType == input.userType && u.active && u.needsPasswordChange &&
      u.accessCode.None? && u.createdAt == now &&
      u.permissions == Some(input.permissions.GetOr(DefaultPermissions)) &&
      u.assignedCondominiums == input.assignedCondominiums.GetOr([condominiumId]) &&
      (input.assignedCondominiums.None? ==> Serves(u, condominiumId))
  {
    if EmailUsed(us, input.email, None) then Err(EmailInUse)
    else Ok(us[id := U.User(
      id, condominiumId, input.name, input.email, passwordHash, input.userType, None,
      input.phone, input.document, None, true,
      Some(input.permissions.GetOr(DefaultPermissions)),
      input.assignedCondominiums.GetOr([condominiumId]), true, now)])
  }

  /** A staff member created without an explicit assignment is found by
      findOne in the condominium that created it. */
  lemma CreatedOperatorInScope(us: Users, condominiumId: Id, input: NewOperator, id: Id, passwordHash: string, now: int)
    requires id !in us && IsStaff(input.userType)
    requires Create(us, condominiumId, input, id, passwordHash, now).Ok?
    ensures FindOne(Create(us, condominiumId, input, id, passwordHash, now).value, id, condominiumId).Ok?
  {
  }

  datatype OperatorChanges = OperatorChanges(
    name: Option<string>,
    email: Option<string>,
    phone: Option<string>,
    document: Option<string>,
    permissions: Option<U.Permissions>,
    assignedCondominiums: Option<seq<Id>>,
    password: Option<string>)

  /** The merge step of update: only truthy fields are written; a list is
      truthy even when empty. */
  function Apply(u: User, ch: OperatorChanges, passwordHash: string): User
  {
    u.(
      name := if Truthy(ch.name) then ch.name.value else u.name,
      email := if Truthy(ch.email) then ch.email.value else u.email,
      phone := if Truthy(ch.phone) then ch.phone else u.phone,
      document := if Truthy(ch.document) then ch.document else u.document,
      permissions := if ch.permissions.Some? then ch.permissions else u.permissions,
      assignedCondominiums := ch.assignedCondominiums.GetOr(u.assignedCondominiums),
      passwordHash := if Truthy(ch.password) then passwordHash else u.passwordHash)
  }

  /** A changed email that another user already has. */
  predicate EmailClash(us: Users, id: Id, u: User, ch: OperatorChanges)
  {
    Truthy(ch.email) && ch.email.value != u.email && EmailUsed(us, ch.email.value, Some(id))
  }

  function Update(us: Users, id: Id, condominiumId: Id, ch: OperatorChanges, passwordHash: string): (r: Result<Users, Error>)
    ensures FindOne(us, id, condominiumId).Err? ==> r == Err(NotFound)
    ensures r == Err(EmailInUse) <==>
      FindOne(us, id, condominiumId).Ok? && EmailClash(us, id, us[id], ch)
    ensures r.Ok? <==>
      FindOne(us, id, condominiumId).Ok? && !EmailClash(us, id, us[id], ch)
    ensures r.Ok? ==>
      r.value.Keys == us.Keys && (forall k :: k in us && k != id ==> r.value[k] == us[k])
    ensures r.Ok? ==>
      var (u, w) := (us[id], r.value[id]);
      w.id == u.id && w.condominiumId == u.condominiumId && w.userType == u.userType &&
      w.active == u.active && w.needsPasswordChange == u.needsPasswordChange &&
      w.accessCode == u.accessCode && w.createdAt == u.createdAt && w.unit == u.unit
    ensures r.Ok? ==>
      var (u, w) := (us[id], r.value[id]);
      w.name == (if Truthy(ch.name) then ch.name.value else u.name) &&
      w.email == (if Truthy(ch.email) then ch.email.value else u.email) &&
      w.phone == (if Truthy(ch.phone) then ch.phone else u.phone) &&
      w.document == (if Truthy(ch.document) then ch.document else u.document) &&
      w.permissions == (if ch.permissions.Some? then ch.permissions else u.permissions) &&
      w.assignedCondominiums == ch.assignedCondominiums.GetOr(u.assignedCondominiums) &&
      w.passwordHash == (if Truthy(ch.password) then passwordHash else u.passwordHash)
  {
    var u :- FindOne(us, id, condominiumId);
    if EmailClash(us, id, u, ch) then Err(EmailInUse)
    else Ok(us[id := Apply(u, ch, passwordHash)])
  }

  /** Operator create and update never introduce a shared email. */
  lemma CreateKeepsEmailsUnique(us: Users, condominiumId: Id, input: NewOperator, id: Id, passwordHash: string, now: int)
    requires id !in us && EmailsUnique(us)
    requires Create(us, condominiumId, input, id, passwordHash, now).Ok?
    ensures EmailsUnique(Create(us, condominiumId, input, id, passwordHash, now).value)
  {
    forall k | k in us
      ensures us[k].email != input.email
    {
      assert Some(k) != None;
    }
  }

  lemma UpdateKeepsEmailsUnique(us: Users, id: Id, condominiumId: Id, ch: OperatorChanges, passwordHash: string)
    requires EmailsUnique(us)
    requires Update(us, id, condominiumId, ch, passwordHash).Ok?
    ensures EmailsUnique(Update(us, id, condominiumId, ch, passwordHash).value)
  {
    var after := Update(us, id, condominiumId, ch, passwordHash).value;
    forall k | k in us && k != id
      ensures us[k].email != after[id].email
    {
      assert Some(k) != Some(id);
    }
  }

  function Remove(us: Users, id: Id, condominiumId: Id): (r: Result<Users, Error>)
    ensures r.Ok? <==> FindOne(us, id, condominiumId).Ok?
    ensures r.Err? ==> r.error == NotFound
    ensures r.Ok? ==> r.value == us[id := us[id].(active := false)]
  {
    var u :- FindOne(us, id, condominiumId);
    Ok(us[id := u.(active := false)])
  }

  /** After removal the operator is out of scope everywhere. */
  lemma RemoveThenNotFound(us: Users, id: Id, condominiumId: Id, other: Id)
    requires Remove(us, id, condominiumId).Ok?
    ensures FindOne(Remove(us, id, condominiumId).value, id, other) == Err(NotFound)
  {
  }
}

=== FILE: store.dfy ===
/** Collections are maps from document id to record. A `find(filter).sort(…)`
    query becomes `Select`: the ids whose records pass a filter, ordered by a
    numeric key (negate the key for a descending sort). */
module Store {

  /** A Mongo `_id`, opaque. */
  type Id = string

  predicate Distinct<K(==)>(ids: seq<K>)
  {
    forall i, j :: 0 <= i < j < |ids| ==> ids[i] != ids[j]
  }

  predicate SortedBy<K, V>(ids: seq<K>, m: map<K, V>, key: V -> int)
    requires forall i :: 0 <= i < |ids| ==> ids[i] in m
  {
    forall i, j :: 0 <= i < j < |ids| ==> key(m[ids[i]]) <= key(m[ids[j]])
  }

  /** Insertion of `k` into a sorted list after every record whose key is not larger. */
  method Insert<K(==), V>(ids: seq<K>, m: map<K, V>, key: V -> int, k: K) returns (r: seq<K>)
    requires forall i :: 0 <= i < |ids| ==> ids[i] in m
    requires k in m && k !in ids
    requires Distinct(ids) && SortedBy(ids, m, key)
    ensures forall x :: x in r <==> x in ids || x == k
    ensures forall i :: 0 <= i < |r| ==> r[i] in m && (r[i] in ids || r[i] == k)
    ensures Distinct(r) && SortedBy(r, m, key)
  {
    var pos := 0;
    while pos < |ids| && key(m[ids[pos]]) <= key(m[k])
      invariant 0 <= pos <= |ids|
      invariant forall i :: 0 <= i < pos ==> key(m[ids[i]]) <= key(m[k])
    {
      pos := pos + 1;
    }
    r := ids[..pos] + [k] + ids[pos..];
    assert |r| == |ids| + 1;
    forall i | 0 <= i < |r|
      ensures r[i] == (if i < pos then ids[i] else if i == pos then k else ids[i - 1])
    {
    }
    forall i, j | 0 <= i < j < |r|
      ensures key(m[r[i]]) <= key(m[r[j]]) && r[i] != r[j]
    {
      if j == pos {
        assert r[i] == ids[i];
      } else if i == pos {
        assert r[j] == ids[j - 1];
        assert key(m[k]) < key(m[ids[pos]]);
      } else if i > pos {
        assert r[i] == ids[i - 1] && r[j] == ids[j - 1];
      } else if j > pos {
        assert r[i] == ids[i] && r[j] == ids[j - 1];
      }
    }
  }

  /** Every key whose record passes `keep`, once each, in ascending `key` order. */
  method Select<K(==), V>(m: map<K, V>, keep: V -> bool, key: V -> int) returns (ids: seq<K>)
    ensures forall i :: 0 <= i < |ids| ==> ids[i] in m && keep(m[ids[i]])
    ensures forall k :: k in m && keep(m[k]) ==> k in ids
    ensures Distinct(ids)
    ensures SortedBy(ids, m, key)
  {
    ids := [];
    var rest := m.Keys;
    while rest != {}
      invariant rest <= m.Keys
      invariant forall i :: 0 <= i < |ids| ==> ids[i] in m && ids[i] !in rest && keep(m[ids[i]])
      invariant forall k :: k in m && k !in rest && keep(m[k]) ==> k in ids
      invariant Distinct(ids)
      invariant SortedBy(ids, m, key)
      decreases rest
    {
      var k :| k in rest;
      rest := rest - {k};
      if keep(m[k]) {
        ids := Insert(ids, m, key, k);
      }
    }
  }

  /** The ids of a duplicate-free list are as many as the list is long. */
  lemma {:induction false} DistinctCardinality<K>(ids: seq<K>)
    requires Distinct(ids)
    ensures |set i | i in ids| == |ids|
  {
    if |ids| > 0 {
      var last := ids[|ids| - 1];
      var init := ids[..|ids| - 1];
      DistinctCardinality(init);
      assert (set i | i in ids) == (set i | i in init) + {last};
      assert last !in init;
    }
  }
}

=== FILE: text.dfy ===
/** Character classes and string helpers shared by the validators, the date
    formatters and the access-code generator. A character is a Unicode
    scalar value, not a UTF-16 code unit as in a JavaScript string, so a
    character outside the Basic Multilingual Plane counts once here where
    JavaScript counts two units. Only ASCII letters are case-mapped. */
module Text {

  /** The class `\d` of a JavaScript regular expression without the `u` flag. */
  predicate IsDigit(c: char) { '0' <= c <= '9' }

  predicate IsUpper(c: char) { 'A' <= c <= 'Z' }

  predicate IsLower(c: char) { 'a' <= c <= 'z' }

  /** The class `[A-Z0-9]` matched case-insensitively (`/gi`). */
  predicate IsAlnum(c: char) { IsDigit(c) || IsUpper(c) || IsLower(c) }

  predicate IsLowerHex(c: char) { IsDigit(c) || 'a' <= c <= 'f' }

  predicate IsUpperHex(c: char) { IsDigit(c) || 'A' <= c <= 'F' }

  predicate AllDigits(s: string) { forall i :: 0 <= i < |s| ==> IsDigit(s[i]) }

  predicate AllUpper(s: string) { forall i :: 0 <= i < |s| ==> IsUpper(s[i]) }

  predicate AllUpperOrDigit(s: string)
  {
    forall i :: 0 <= i < |s| ==> IsUpper(s[i]) || IsDigit(s[i])
  }

  function DigitValue(c: char): (n: nat)
    requires IsDigit(c)
    ensures n < 10
  {
    (c as int - '0' as int) as nat
  }

  function DigitChar(n: nat): (c: char)
    requires n < 10
    ensures IsDigit(c) && DigitValue(c) == n
  {
    ('0' as int + n) as char
  }

  /** `String.prototype.toUpperCase` restricted to ASCII letters. */
  function UpperChar(c: char): (u: char)
    ensures IsLower(c) ==> IsUpper(u)
    ensures !IsLower(c) ==> u == c
    ensures IsAlnum(c) <==> IsAlnum(u)
  {
    if IsLower(c) then (c as int - 32) as char else c
  }

  function ToUpper(s: string): (r: string)
    ensures |r| == |s|
    ensures forall i :: 0 <= i < |s| ==> r[i] == UpperChar(s[i])
  {
    if |s| == 0 then [] else [UpperChar(s[0])] + ToUpper(s[1..])
  }

  lemma ToUpperAppend(a: string, b: string)
    ensures ToUpper(a + b) == ToUpper(a) + ToUpper(b)
  {
    assert forall i :: 0 <= i < |a + b| ==> ToUpper(a + b)[i] == (ToUpper(a) + ToUpper(b))[i];
  }

  /** The characters of `s` that satisfy `p`, in order: `s.replace(/[^…]/g, '')`. */
  function Keep(s: string, p: char -> bool): (r: string)
    ensures |r| <= |s|
    ensures forall i :: 0 <= i < |r| ==> p(r[i])
  {
    if |s| == 0 then []
    else if p(s[0]) then [s[0]] + Keep(s[1..], p)
    else Keep(s[1..], p)
  }

  lemma {:induction false} KeepAppend(a: string, b: string, p: char -> bool)
    ensures Keep(a + b, p) == Keep(a, p) + Keep(b, p)
  {
    if |a| == 0 {
      assert a + b == b;
    } else {
      assert (a + b)[0] == a[0];
      assert (a + b)[1..] == a[1..] + b;
      KeepAppend(a[1..], b, p);
    }
  }

  /** Filtering keeps a string unchanged exactly when every character passes. */
  lemma {:induction false} KeepIdentity(s: string, p: char -> bool)
    ensures Keep(s, p) == s <==> forall i :: 0 <= i < |s| ==> p(s[i])
  {
    if |s| > 0 {
      KeepIdentity(s[1..], p);
      if !p(s[0]) {
        assert |Keep(s, p)| < |s| by { assert Keep(s, p) == Keep(s[1..], p); }
      } else {
        assert Keep(s, p) == [s[0]] + Keep(s[1..], p);
        if Keep(s, p) == s {
          assert Keep(s[1..], p) == s[1..];
        }
        assert (forall i :: 0 <= i < |s| ==> p(s[i])) ==> (forall i :: 0 <= i < |s[1..]| ==> p(s[1..][i]));
      }
    }
  }

  /** A passing prefix survives, a failing separator is dropped. */
  lemma KeepSkip(a: string, x: char, b: string, p: char -> bool)
    requires forall i :: 0 <= i < |a| ==> p(a[i])
    requires !p(x)
    ensures Keep(a + [x] + b, p) == a + Keep(b, p)
  {
    KeepAppend(a, [x] + b, p);
    assert a + [x] + b == a + ([x] + b);
    KeepIdentity(a, p);
    assert ([x] + b)[1..] == b;
  }

  /** Filtering twice is filtering once. */
  lemma KeepIdempotent(s: string, p: char -> bool)
    ensures Keep(Keep(s, p), p) == Keep(s, p)
  {
    KeepIdentity(Keep(s, p), p);
  }

  /** Upper-casing leaves strings without lower-case letters alone. */
  lemma ToUpperIdentity(s: string)
    requires forall i :: 0 <= i < |s| ==> !IsLower(s[i])
    ensures ToUpper(s) == s
  {
  }

  lemma ToUpperIdempotent(s: string)
    ensures ToUpper(ToUpper(s)) == ToUpper(s)
  {
    ToUpperIdentity(ToUpper(s));
  }

  lemma UpperKeepsAlnum(s: string)
    requires forall i :: 0 <= i < |s| ==> IsAlnum(s[i])
    ensures AllUpperOrDigit(ToUpper(s))
  {
  }

  // ---------------------------------------------------------------------
  // Decimal numerals (`Number.prototype.toString()` on non-negative integers)

  function Decimal(n: nat): (r: string)
    ensures |r| > 0 && AllDigits(r)
  {
    if n < 10 then [DigitChar(n)] else Decimal(n / 10) + [DigitChar(n % 10)]
  }

  /** The value of a string of decimal digits (`parseInt` on a digit string). */
  function ParseDecimal(s: string): nat
    requires AllDigits(s)
  {
    if |s| == 0 then 0
    else 10 * ParseDecimal(s[..|s| - 1]) + DigitValue(s[|s| - 1])
  }

  lemma {:induction false} DecimalRoundTrip(n: nat)
    ensures ParseDecimal(Decimal(n)) == n
  {
    if n >= 10 {
      DecimalRoundTrip(n / 10);
      var s := Decimal(n);
      assert s[..|s| - 1] == Decimal(n / 10);
    }
  }

  function Pow10(k: nat): (r: nat)
    ensures r >= 1
    ensures k >= 1 ==> r >= 10
  {
    if k == 0 then 1 else 10 * Pow10(k - 1)
  }

  /** A numeral has more than `k` digits exactly when the number reaches 10^k. */
  lemma {:induction false} DecimalLength(n: nat, k: nat)
    requires k >= 1
    ensures |Decimal(n)| > k <==> n >= Pow10(k)
  {
    if k > 1 && n >= 10 {
      DecimalLength(n / 10, k - 1);
    }
  }

  /** `String(n).padStart(2, '0')`. */
  function Pad2(n: nat): (r: string)
    ensures n < 100 ==> |r| == 2 && AllDigits(r) && ParseDecimal(r) == n
  {
    var d := Decimal(n);
    if n < 10 then
      assert d == [DigitChar(n)];
      var r := ['0'] + d;
      assert r[..1] == ['0'] && ParseDecimal(r[..1]) == 0;
      r
    else
      DecimalRoundTrip(n);
      if n < 100 then DecimalLength(n, 2); d else d
  }

  // ---------------------------------------------------------------------
  // Hexadecimal (`Buffer.prototype.toString('hex')`)

  type byte = x: int | 0 <= x < 256

  function HexDigit(n: nat): (c: char)
    requires n < 16
    ensures IsLowerHex(c)
  {
    if n < 10 then DigitChar(n) else ('a' as int + n - 10) as char
  }

  function HexValue(c: char): (n: nat)
    requires IsLowerHex(c)
    ensures n < 16
  {
    if IsDigit(c) then DigitValue(c) else c as int - 'a' as int + 10
  }

  lemma HexDigitRoundTrip(n: nat)
    requires n < 16
    ensures HexValue(HexDigit(n)) == n
  {
  }

  /** Two lower-case hex characters per byte, high nibble first. */
  function HexEncode(bs: seq<byte>): (r: string)
    ensures |r| == 2 * |bs|
    ensures forall i :: 0 <= i < |r| ==> IsLowerHex(r[i])
  {
    if |bs| == 0 then [] else [HexDigit(bs[0] / 16), HexDigit(bs[0] % 16)] + HexEncode(bs[1..])
  }

  function HexDecode(s: string): seq<byte>
    requires |s| % 2 == 0
    requires forall i :: 0 <= i < |s| ==> IsLowerHex(s[i])
  {
    if |s| == 0 then [] else [HexValue(s[0]) * 16 + HexValue(s[1])] + HexDecode(s[2..])
  }

  lemma {:induction false} HexRoundTrip(bs: seq<byte>)
    ensures HexDecode(HexEncode(bs)) == bs
  {
    if |bs| > 0 {
      var s := HexEncode(bs);
      HexDigitRoundTrip(bs[0] / 16);
      HexDigitRoundTrip(bs[0] % 16);
      assert s[2..] == HexEncode(bs[1..]);
      HexRoundTrip(bs[1..]);
    }
  }

  /** Hex encoding is injective: distinct byte strings give distinct texts. */
  lemma HexInjective(a: seq<byte>, b: seq<byte>)
    ensures HexEncode(a) == HexEncode(b) ==> a == b
  {
    HexRoundTrip(a);
    HexRoundTrip(b);
  }

  // ---------------------------------------------------------------------
  // Splitting on a separator (`String.prototype.split` with one character)

  function FirstIndex(s: string, c: char): (i: nat)
    requires c in s
    ensures i < |s| && s[i] == c && c !in s[..i]
  {
    if s[0] == c then 0
    else
      assert c in s[1..] by { var k :| 0 <= k < |s| && s[k] == c; assert s[1..][k - 1] == c; }
      var j := FirstIndex(s[1..], c);
      assert s[..j + 1] == [s[0]] + s[1..][..j];
      j + 1
  }

  lemma FirstIndexAt(s: string, c: char, k: nat)
    requires k < |s| && s[k] == c && c !in s[..k]
    ensures FirstIndex(s, c) == k
  {
  }

  /** The pieces of `s` between occurrences of `sep`; always at least one. */
  function Split(s: string, sep: char): (parts: seq<string>)
    ensures |parts| >= 1
    ensures sep !in s ==> parts == [s]
    ensures sep in s ==> |parts| >= 2
    decreases |s|
  {
    if sep !in s then [s]
    else
      var i := FirstIndex(s, sep);
      [s[..i]] + Split(s[i + 1..], sep)
  }

  /** The first separator at `i` cuts off the first piece. */
  lemma SplitAt(s: string, sep: char, i: nat)
    requires i < |s| && s[i] == sep && sep !in s[..i]
    ensures Split(s, sep) == [s[..i]] + Split(s[i + 1..], sep)
  {
    FirstIndexAt(s, sep, i);
  }

  lemma SeqAssoc<T>(a: seq<T>, b: seq<T>, c: seq<T>)
    ensures a + (b + c) == (a + b) + c
  {
  }

  /** Splitting a joined string splits both halves. */
  lemma {:induction false} SplitJoin(x: string, sep: char, r: string)
    ensures Split(x + [sep] + r, sep) == Split(x, sep) + Split(r, sep)
    decreases |x|
  {
    var s := x + [sep] + r;
    if sep !in x {
      assert s[..|x|] == x && s[|x| + 1..] == r;
      SplitAt(s, sep, |x|);
    } else {
      var j := FirstIndex(x, sep);
      var x' := x[j + 1..];
      assert s[..j] == x[..j] && s[j + 1..] == x' + [sep] + r;
      calc {
        Split(s, sep);
      == { SplitAt(s, sep, j); }
        [x[..j]] + Split(x' + [sep] + r, sep);
      == { SplitJoin(x', sep, r); }
        [x[..j]] + (Split(x', sep) + Split(r, sep));
      == { SeqAssoc([x[..j]], Split(x', sep), Split(r, sep)); }
        ([x[..j]] + Split(x', sep)) + Split(r, sep);
      == { SplitAt(x, sep, j); }
        Split(x, sep) + Split(r, sep);
      }
    }
  }
}

=== FILE: users.dfy ===
/** Portal users (users.service.ts). The same collection holds admins,
    residents, operators and technicians; operators.service.ts works on it too. */
module Users {
  import opened Wrappers
  import opened Store
  import opened Text
  import Validation
  import AccessCode

  datatype UserType = Admin | Resident | Operator | Technician

  /** The optional permission flags, in schema order. */
  datatype Permissions = Permissions(
    canViewAllCondominiums: Option<bool>,
    canManageVisitors: Option<bool>,
    canManageVehicles: Option<bool>,
    canViewReports: Option<bool>,
    canManageAccess: Option<bool>)

  /** A stored user. An array path starts out empty, so `assignedCondominiums`
      is a plain list; `accessCode` is absent for operators. */
  datatype User = User(
    id: Id,
    condominiumId: Id,
    name: string,
    email: string,
    passwordHash: string,
    userType: UserType,
    unit: Option<string>,
    phone: Option<string>,
    document: Option<string>,
    accessCode: Option<string>,
    needsPasswordChange: bool,
    permissions: Option<Permissions>,
    assignedCondominiums: seq<Id>,
    active: bool,
    createdAt: int)

  type Users = map<Id, User>

  /** `DuplicateKey` is the database's own refusal of a write that breaks a
      unique index; the services never catch it. */
  datatype Error = EmailTaken | InvalidCpf | InvalidPhone | NotFound | DuplicateKey

  datatype NewUser = NewUser(
    name: string,
    email: string,
    password: string,
    userType: UserType,
    unit: Option<string>,
    phone: Option<string>,
    cpf: Option<string>)

  datatype UserChanges = UserChanges(
    name: Option<string>,
    email: Option<string>,
    password: Option<string>,
    userType: Option<UserType>,
    unit: Option<string>,
    phone: Option<string>,
    cpf: Option<string>,
    active: Option<bool>)

  // ---------------------------------------------------------------------
  // Access codes

  /** ADM for an admin, MOR for everyone else. */
  function AccessPrefix(t: UserType): (p: string)
    ensures |p| == 3 && AllUpper(p) && '-' !in p
    ensures p == "ADM" <==> t == Admin
  {
    if t == Admin then "ADM" else "MOR"
  }

  /** `email.split('@')[0].substring(0, 5)`: at most five characters of the
      email, stopping early only at the first `@` or the end. */
  function EmailHead(email: string): (r: string)
    ensures |r| <= 5 && '@' !in r && r <= email
    ensures |r| < 5 ==> |r| == |email| || email[|r|] == '@'
  {
    var local := Split(email, '@')[0];
    if '@' in email then
      var i := FirstIndex(email, '@');
      assert local == email[..i];
      if |local| <= 5 then local else local[..5]
    else
      if |local| <= 5 then local else local[..5]
  }

  /** The identifier behind the code: the unit when given, else the email head. */
  function Identifier(input: NewUser): string
  {
    if Truthy(input.unit) then input.unit.value else EmailHead(input.email)
  }

  // ---------------------------------------------------------------------
  // create

  /** create as written: there is no working duplicate-email check (see
      `CreateUnique`). */
  function Create(us: Users, condominiumId: Id, input: NewUser, id: Id, passwordHash: string,
                  now: nat, random: seq<byte>): (r: Result<Users, Error>)
    requires id !in us && |random| == 2
    ensures Truthy(input.cpf) && !Validation.IsValidCpf(input.cpf.value) ==> r == Err(InvalidCpf)
    ensures
      && (Truthy(input.cpf) ==> Validation.IsValidCpf(input.cpf.value))
      && Truthy(input.phone) && !Validation.IsValidPhone(input.phone.value)
      ==> r == Err(InvalidPhone)
    ensures r.Ok? <==>
      (Truthy(input.cpf) ==> Validation.IsValidCpf(input.cpf.value)) &&
      (Truthy(input.phone) ==> Validation.IsValidPhone(input.phone.value))
    ensures r.Ok? ==>
      r.value.Keys == us.Keys + {id} && (forall k :: k in us ==> r.value[k] == us[k])
    ensures r.Ok? ==>
      var u := r.value[id];
      u.id == id && u.condominiumId == condominiumId && u.email == input.email &&
      u.name == input.name && u.passwordHash == passwordHash &&
      u.unit == input.unit && u.phone == input.phone &&
      u.userType == input.userType && u.active && !u.needsPasswordChange &&
      u.permissions.None? && u.assignedCondominiums == [] && u.createdAt == now &&
      u.document == (if Truthy(input.cpf) then Some(Validation.CleanDocument(input.cpf.value)) else None) &&
      (u.document.Some? ==> |u.document.value| == 11 && AllDigits(u.document.value)) &&
      u.accessCode == Some(AccessCode.GenerateAccessCode(AccessPrefix(input.userType), Identifier(input), now, random))
  {
    if Truthy(input.cpf) && !Validation.IsValidCpf(input.cpf.value) then
      Err(InvalidCpf)
    else if Truthy(input.phone) && !Validation.IsValidPhone(input.phone.value) then
      Err(InvalidPhone)
    else
      var code := AccessCode.GenerateAccessCode(AccessPrefix(input.userType), Identifier(input), now, random);
      var document := if Truthy(input.cpf) then Some(Validation.CleanDocument(input.cpf.value)) else None;
      var u := User(
        id, condominiumId, input.name, input.email, passwordHash, input.userType, input.unit,
        input.phone, document, Some(code), false, None, [], true, now);
      assert Truthy(input.cpf) ==> Validation.IsValidCpf(Validation.CleanDocument(input.cpf.value)) by {
        if Truthy(input.cpf) {
          Validation.CpfIgnoresPunctuation(input.cpf.value);
        }
      }
      Ok(us[id := u])
  }

  /** The code of a new user splits into its prefix, cleaned identifier,
      clock digits and random part; the prefix tells admins apart; and the
      code passes the format check exactly when the identifier keeps at least
      one letter or digit and the clock has reached 100000 ms. */
  lemma CreatedAccessCode(us: Users, condominiumId: Id, input: NewUser, id: Id, passwordHash: string,
                          now: nat, random: seq<byte>)
    requires id !in us && |random| == 2
    requires Create(us, condominiumId, input, id, passwordHash, now, random).Ok?
    ensures var code := Create(us, condominiumId, input, id, passwordHash, now, random).value[id].accessCode.value;
      Split(code, '-') == [AccessPrefix(input.userType), AccessCode.CleanIdentifier(Identifier(input)),
                           AccessCode.TimestampPart(now), AccessCode.RandomPart(random)] &&
      (Split(code, '-')[0] == "ADM" <==> input.userType == Admin) &&
      (AccessCode.IsAccessCodeFormat(code) <==>
        |AccessCode.CleanIdentifier(Identifier(input))| >= 1 && now >= 100000)
  {
    var p := AccessPrefix(input.userType);
    AccessCode.GeneratedCodeParts(p, Identifier(input), now, random);
    AccessCode.GeneratedCodeFormat(p, Identifier(input), now, random);
  }

  /** Some other user of the condominium already has this email. */
  predicate EmailUsedIn(us: Users, condominiumId: Id, email: string)
  {
    exists k :: k in us && us[k].condominiumId == condominiumId && us[k].email == email
  }

  /** No two users of one condominium share an email. */
  predicate EmailsUniquePerCondominium(us: Users)
  {
    forall a, b :: a in us && b in us && a != b && us[a].condominiumId == us[b].condominiumId ==>
      us[a].email != us[b].email
  }

  /** The unique (condominiumId, email) index of the user schema: the
      database refuses a write that would leave two users of one condominium
      with the same email. */
  function Save(after: Users): (r: Result<Users, Error>)
    ensures r.Ok? <==> EmailsUniquePerCondominium(after)
    ensures r.Ok? ==> r.value == after
    ensures r.Err? ==> r.error == DuplicateKey
  {
    if EmailsUniquePerCondominium(after) then Ok(after) else Err(DuplicateKey)
  }

  /** create as written, followed by the save that the index guards: a
      duplicate email is not refused by the service as `EmailTaken` but by the
      database as `DuplicateKey`. */
  function CreateAndSave(us: Users, condominiumId: Id, input: NewUser, id: Id, passwordHash: string,
                         now: nat, random: seq<byte>): (r: Result<Users, Error>)
    requires id !in us && |random| == 2 && EmailsUniquePerCondominium(us)
    ensures r != Err(EmailTaken)
    ensures r == Err(DuplicateKey) <==>
      Create(us, condominiumId, input, id, passwordHash, now, random).Ok? &&
      EmailUsedIn(us, condominiumId, input.email)
    ensures r.Ok? ==> EmailsUniquePerCondominium(r.value)
  {
    var after :- Create(us, condominiumId, input, id, passwordHash, now, random);
    if EmailUsedIn(us, condominiumId, input.email) then
      var k :| k in us && us[k].condominiumId == condominiumId && us[k].email == input.email;
      assert after[k] == us[k] && k != id;
      Save(after)
    else
      CreateKeepsEmailsUnique(us, condominiumId, input, id, passwordHash, now, random);
      Save(after)
  }

  /** Creating a user whose email is not yet used in its condominium keeps
      emails unique per condominium. */
  lemma CreateKeepsEmailsUnique(us: Users, condominiumId: Id, input: NewUser, id: Id, passwordHash: string,
                                now: nat, random: seq<byte>)
    requires id !in us && |random| == 2 && EmailsUniquePerCondominium(us)
    requires !EmailUsedIn(us, condominiumId, input.email)
    requires Create(us, condominiumId, input, id, passwordHash, now, random).Ok?
    ensures EmailsUniquePerCondominium(Create(us, condominiumId, input, id, passwordHash, now, random).value)
  {
    var after := Create(us, condominiumId, input, id, passwordHash, now, random).value;
    forall k | k in us && us[k].condominiumId == condominiumId
      ensures us[k].email != input.email
    {
    }
    forall a, b | a in after && b in after && a != b && after[a].condominiumId == after[b].condominiumId
      ensures after[a].email != after[b].email
    {
      if a != id && b != id {
        assert after[a] == us[a] && after[b] == us[b];
      }
    }
  }

  /** The as-written create never reports a duplicate email: for any input
      whose CPF and phone pass and whose email is taken in the condominium,
      the service goes ahead and the database refuses the write with a
      duplicate-key error, where the checked create answers `EmailTaken`. */
  lemma DuplicateEmailNotReported(us: Users, condominiumId: Id, input: NewUser, id: Id, passwordHash: string,
                                  now: nat, random: seq<byte>)
    requires id !in us && |random| == 2 && EmailsUniquePerCondominium(us)
    requires EmailUsedIn(us, condominiumId, input.email)
    requires Truthy(input.cpf) ==> Validation.IsValidCpf(input.cpf.value)
    requires Truthy(input.phone) ==> Validation.IsValidPhone(input.phone.value)
    ensures Create(us, condominiumId, input, id, passwordHash, now, random).Ok?
    ensures CreateAndSave(us, condominiumId, input, id, passwordHash, now, random) == Err(DuplicateKey)
    ensures CreateUnique(us, condominiumId, input, id, passwordHash, now, random) == Err(EmailTaken)
  {
  }

  /** create with the per-condominium email check that was evidently meant. */
  function CreateUnique(us: Users, condominiumId: Id, input: NewUser, id: Id, passwordHash: string,
                        now: nat, random: seq<byte>): (r: Result<Users, Error>)
    requires id !in us && |random| == 2
    ensures EmailUsedIn(us, condominiumId, input.email) ==> r == Err(EmailTaken)
    ensures !EmailUsedIn(us, condominiumId, input.email) ==>
      r == Create(us, condominiumId, input, id, passwordHash, now, random)
  {
    if EmailUsedIn(us, condominiumId, input.email) then Err(EmailTaken)
    else Create(us, condominiumId, input, id, passwordHash, now, random)
  }

  /** The checked create keeps emails unique inside every condominium. */
  lemma CreateUniqueKeepsEmailsUnique(us: Users, condominiumId: Id, input: NewUser, id: Id,
                                      passwordHash: string, now: nat, random: seq<byte>)
    requires id !in us && |random| == 2
    requires EmailsUniquePerCondominium(us)
    requires CreateUnique(us, condominiumId, input, id, passwordHash, now, random).Ok?
    ensures EmailsUniquePerCondominium(CreateUnique(us, condominiumId, input, id, passwordHash, now, random).value)
  {
    CreateKeepsEmailsUnique(us, condominiumId, input, id, passwordHash, now, random);
  }

  // ---------------------------------------------------------------------
  // findAll

  /** The query-string paging parameters, both optional. */
  datatype Paging = Paging(page: Option<int>, limit: Option<int>)

  /** A page must be at least 1 and a limit between 1 and 100. */
  predicate ValidPaging(p: Paging)
  {
    (p.page.Some? ==> p.page.value >= 1) && (p.limit.Some? ==> 1 <= p.limit.value <= 100)
  }

  datatype Page = Page(data: seq<Id>, total: nat, page: int, limit: int, totalPages: nat)

  /** `Math.ceil(n / d)` for a positive divisor. */
  function CeilDiv(n: nat, d: int): (q: nat)
    requires d >= 1
    ensures (q - 1) * d < n <= q * d || (n == 0 && q == 0)
  {
    (n + d - 1) / d
  }

  /** `(page - 1) * limit`: how many matches come before the page. */
  function Skip(page: int, limit: int): (skip: nat)
    requires page >= 1 && limit >= 1
  {
    (page - 1) * limit
  }

  /** `.skip(skip).limit(limit)`: up to `limit` elements starting at `skip`. */
  function Window<T>(s: seq<T>, skip: nat, limit: nat): (w: seq<T>)
    ensures |w| == if skip >= |s| then 0 else if |s| - skip < limit then |s| - skip else limit
    ensures forall i :: 0 <= i < |w| ==> w[i] == s[skip + i]
  {
    if skip >= |s| then []
    else if |s| - skip < limit then s[skip..]
    else s[skip..skip + limit]
  }

  /** The list filter: active users of the condominium, of the given type if any. */
  predicate Matches(u: User, condominiumId: Id, userType: Option<UserType>)
  {
    u.condominiumId == condominiumId && u.active && (userType.Some? ==> u.userType == userType.value)
  }

  function MatchingIds(us: Users, condominiumId: Id, userType: Option<UserType>): set<Id>
  {
    set k | k in us && Matches(us[k], condominiumId, userType)
  }

  /** Every matching user once, newest first. */
  method ListMatching(us: Users, condominiumId: Id, userType: Option<UserType>) returns (all: seq<Id>)
    ensures forall i :: 0 <= i < |all| ==> all[i] in MatchingIds(us, condominiumId, userType)
    ensures forall k :: k in MatchingIds(us, condominiumId, userType) ==> k in all
    ensures Distinct(all) && |all| == |MatchingIds(us, condominiumId, userType)|
    ensures forall i, j :: 0 <= i < j < |all| ==> us[all[i]].createdAt >= us[all[j]].createdAt
  {
    all := Select(us, (u: User) => Matches(u, condominiumId, userType), (u: User) => -u.createdAt);
    DistinctCardinality(all);
    assert (set i | i in all) == MatchingIds(us, condominiumId, userType);
  }

  /** findAll without the free-text search: page `page` of the matching
      users, newest first, with the total and the page count. `all` is the
      full newest-first listing the page is cut from. */
  method FindAll(us: Users, condominiumId: Id, p: Paging, userType: Option<UserType>) returns (r: Page, all: seq<Id>)
    requires ValidPaging(p)
    ensures forall i :: 0 <= i < |all| ==> all[i] in MatchingIds(us, condominiumId, userType)
    ensures forall k :: k in MatchingIds(us, condominiumId, userType) ==> k in all
    ensures Distinct(all)
    ensures forall i, j :: 0 <= i < j < |all| ==> us[all[i]].createdAt >= us[all[j]].createdAt
    ensures r.page == p.page.GetOr(1) && r.limit == p.limit.GetOr(20)
    ensures r.data == Window(all, Skip(r.page, r.limit), r.limit)
    ensures r.total == |MatchingIds(us, condominiumId, userType)|
    ensures r.totalPages == CeilDiv(r.total, r.limit)
    ensures Distinct(r.data)
    ensures forall i, j :: 0 <= i < j < |r.data| ==> us[r.data[i]].createdAt >= us[r.data[j]].createdAt
  {
    var page := p.page.GetOr(1);
    var limit := p.limit.GetOr(20);
    all := ListMatching(us, condominiumId, userType);
    var skip := Skip(page, limit);
    var data := Window(all, skip, limit);
    WindowKeepsOrder(us, all, skip, limit);
    r := Page(data, |all|, page, limit, CeilDiv(|all|, limit));
  }

  /** A page cut from a duplicate-free, newest-first listing is itself
      duplicate-free and newest first. */
  lemma WindowKeepsOrder(us: Users, all: seq<Id>, skip: nat, limit: nat)
    requires forall i :: 0 <= i < |all| ==> all[i] in us
    requires Distinct(all)
    requires forall i, j :: 0 <= i < j < |all| ==> us[all[i]].createdAt >= us[all[j]].createdAt
    ensures var w := Window(all, skip, limit);
      Distinct(w) && forall i, j :: 0 <= i < j < |w| ==> us[w[i]].createdAt >= us[w[j]].createdAt
  {
    var w := Window(all, skip, limit);
    forall i, j | 0 <= i < j < |w|
      ensures w[i] != w[j] && us[w[i]].createdAt >= us[w[j]].createdAt
    {
      assert w[i] == all[skip + i] && w[j] == all[skip + j];
    }
  }

  /** Every entry of the full listing shows up on page `i / limit + 1`, at
      offset `i` minus that page's skip, and that page is between 1 and the
      page count that findAll reports. */
  lemma PageOfPosition<T>(all: seq<T>, limit: int, i: nat)
    requires limit >= 1 && i < |all|
    ensures var page := i / limit + 1;
      var skip := Skip(page, limit);
      1 <= page <= CeilDiv(|all|, limit) &&
      skip <= i < skip + limit &&
      i - skip < |Window(all, skip, limit)| && Window(all, skip, limit)[i - skip] == all[i]
  {
    PageBounds(|all|, limit, i);
    var skip := Skip(i / limit + 1, limit);
    var w := Window(all, skip, limit);
    assert i - skip < |w|;
  }

  /** The arithmetic of `PageOfPosition`. */
  lemma PageBounds(total: nat, limit: int, i: nat)
    requires limit >= 1 && i < total
    ensures var page := i / limit + 1;
      1 <= page <= CeilDiv(total, limit) &&
      Skip(page, limit) <= i < Skip(page, limit) + limit
  {
    var q := i / limit;
    var c := CeilDiv(total, limit);
    assert q * limit <= i < q * limit + limit;
    assert q * limit < c * limit by {
      assert i < total;
    }
    assert q < c;
    assert Skip(q + 1, limit) == q * limit;
  }

  // ---------------------------------------------------------------------
  // update / remove

  /** The merge step of update. */
  function Apply(u: User, ch: UserChanges, passwordHash: string): User
  {
    u.(
      passwordHash := if Truthy(ch.password) then passwordHash else u.passwordHash,
      name := if Truthy(ch.name) then ch.name.value else u.name,
      email := if Truthy(ch.email) then ch.email.value else u.email,
      userType := ch.userType.GetOr(u.userType),
      unit := if ch.unit.Some? then ch.unit else u.unit,
      phone := if ch.phone.Some? then ch.phone else u.phone,
      document :=
        if ch.cpf.None? then u.document
        else if Truthy(ch.cpf) then Some(Validation.CleanDocument(ch.cpf.value))
        else None,
      active := ch.active.GetOr(u.active))
  }

  function Update(us: Users, id: Id, ch: UserChanges, passwordHash: string): (r: Result<Users, Error>)
    ensures id !in us ==> r == Err(NotFound)
    ensures id in us && Truthy(ch.cpf) && !Validation.IsValidCpf(ch.cpf.value) ==> r == Err(InvalidCpf)
    ensures
      && id in us && (Truthy(ch.cpf) ==> Validation.IsValidCpf(ch.cpf.value))
      && Truthy(ch.phone) && !Validation.IsValidPhone(ch.phone.value)
      ==> r == Err(InvalidPhone)
    ensures r.Ok? <==>
      id in us &&
      (Truthy(ch.cpf) ==> Validation.IsValidCpf(ch.cpf.value)) &&
      (Truthy(ch.phone) ==> Validation.IsValidPhone(ch.phone.value))
    ensures r.Ok? ==>
      r.value.Keys == us.Keys && (forall k :: k in us && k != id ==> r.value[k] == us[k])
    ensures r.Ok? ==>
      var (u, w) := (us[id], r.value[id]);
      w.id == u.id && w.condominiumId == u.condominiumId && w.accessCode == u.accessCode &&
      w.permissions == u.permissions && w.assignedCondominiums == u.assignedCondominiums &&
      w.createdAt == u.createdAt &&
      w.document == (if ch.cpf.None? then u.document
                     else if Truthy(ch.cpf) then Some(Validation.CleanDocument(ch.cpf.value))
                     else None) &&
      (Truthy(ch.cpf) ==> Validation.IsValidCpf(w.document.value) && |w.document.value| == 11)
    ensures r.Ok? ==>
      var (u, w) := (us[id], r.value[id]);
      w.passwordHash == (if Truthy(ch.password) then passwordHash else u.passwordHash) &&
      w.name == (if Truthy(ch.name) then ch.name.value else u.name) &&
      w.email == (if Truthy(ch.email) then ch.email.value else u.email) &&
      w.userType == ch.userType.GetOr(u.userType) &&
      w.unit == (if ch.unit.Some? then ch.unit else u.unit) &&
      w.phone == (if ch.phone.Some? then ch.phone else u.phone) &&
      w.active == ch.active.GetOr(u.active)
  {
    if id !in us then Err(NotFound)
    else if Truthy(ch.cpf) && !Validation.IsValidCpf(ch.cpf.value) then Err(InvalidCpf)
    else if Truthy(ch.phone) && !Validation.IsValidPhone(ch.phone.value) then Err(InvalidPhone)
    else
      assert Truthy(ch.cpf) ==> Validation.IsValidCpf(Validation.CleanDocument(ch.cpf.value)) by {
        if Truthy(ch.cpf) {
          Validation.CpfIgnoresPunctuation(ch.cpf.value);
        }
      }
      Ok(us[id := Apply(us[id], ch, passwordHash)])
  }

  /** Repeating an update (with the same password hash) changes nothing more. */
  lemma UpdateIdempotent(us: Users, id: Id, ch: UserChanges, passwordHash: string)
    requires Update(us, id, ch, passwordHash).Ok?
    ensures var once := Update(us, id, ch, passwordHash).value;
      Update(once, id, ch, passwordHash) == Ok(once)
  {
    var once := Update(us, id, ch, passwordHash).value;
    if Truthy(ch.cpf) {
      Validation.CleanDocumentFixpoint(ch.cpf.value);
    }
    assert Apply(once[id], ch, passwordHash) == once[id];
    assert once[id := once[id]] == once;
  }

  function Remove(us: Users, id: Id): (r: Result<Users, Error>)
    ensures r == Err(NotFound) <==> id !in us
    ensures r.Ok? ==> r.value == us[id := us[id].(active := false)]
  {
    if id !in us then Err(NotFound) else Ok(us[id := us[id].(active := false)])
  }

  /** A removed user drops out of every listing and nothing else changes. */
  lemma RemoveUnlists(us: Users, id: Id, condominiumId: Id, userType: Option<UserType>)
    requires Remove(us, id).Ok?
    ensures MatchingIds(Remove(us, id).value, condominiumId, userType) ==
      MatchingIds(us, condominiumId, userType) - {id}
  {
  }
}

=== FILE: validation.dfy ===
/** The document, plate, phone, date and year validators and formatters of
    validation.util.ts, with the patterns of portal-cliente.constants.ts. */
module Validation {
  import opened Text
  import Dates

  // ---------------------------------------------------------------------
  // Documents

  /** limparDocumento: drop every non-digit (`/\D/g`). */
  function CleanDocument(s: string): (r: string)
    ensures AllDigits(r)
    ensures |r| <= |s|
  {
    Keep(s, IsDigit)
  }

  /** Cleaning returns exactly the digit strings unchanged, and is idempotent. */
  lemma CleanDocumentFixpoint(s: string)
    ensures CleanDocument(s) == s <==> AllDigits(s)
    ensures CleanDocument(CleanDocument(s)) == CleanDocument(s)
  {
    KeepIdentity(s, IsDigit);
    KeepIdempotent(s, IsDigit);
  }

  /** Weighted sum of digits: the sum of `DigitValue(ds[i]) * ws[i]`. */
  function Dot(ds: string, ws: seq<int>): int
    requires AllDigits(ds) && |ds| == |ws|
  {
    if |ds| == 0 then 0
    else Dot(ds[..|ds| - 1], ws[..|ws| - 1]) + DigitValue(ds[|ds| - 1]) * ws[|ws| - 1]
  }

  /** A modulo-11 check digit: remainders 0 and 1 give 0, any other r gives 11 - r. */
  function CheckDigit(sum: int): (d: nat)
    ensures d < 10
    ensures sum % 11 < 2 ==> d == 0
    ensures sum % 11 >= 2 ==> (d + sum) % 11 == 0
  {
    var r := sum % 11;
    if r < 2 then 0 else 11 - r
  }

  /** The `^(\d)\1{n}$` test: every digit equals the first. */
  predicate AllSame(d: string)
  {
    forall i :: 0 <= i < |d| ==> d[i] == d[0]
  }

  const CpfWeights1: seq<int> := [10, 9, 8, 7, 6, 5, 4, 3, 2]
  const CpfWeights2: seq<int> := [11, 10, 9, 8, 7, 6, 5, 4, 3, 2]

  /** The CPF rule: eleven digits once cleaned, not all equal, the tenth digit
      the check digit of the first nine, the eleventh that of the first ten. */
  predicate IsValidCpf(s: string)
  {
    var d := CleanDocument(s);
    && |d| == 11
    && !AllSame(d)
    && DigitValue(d[9]) == CheckDigit(Dot(d[..9], CpfWeights1))
    && DigitValue(d[10]) == CheckDigit(Dot(d[..10], CpfWeights2))
  }

  /** Running sum of `val(d[i]) * (start - i)` as the source's loops compute it. */
  method DescendingWeightedSum(d: string, n: int, start: int) returns (soma: int)
    requires AllDigits(d) && 0 <= n <= |d|
    requires start == n + 1
    ensures soma == Dot(d[..n], seq(n, i requires 0 <= i < n => start - i))
  {
    ghost var w := seq(n, i requires 0 <= i < n => start - i);
    soma := 0;
    var i := 0;
    while i < n
      invariant 0 <= i <= n
      invariant soma == Dot(d[..i], w[..i])
    {
      assert d[..i + 1][..i] == d[..i];
      assert w[..i + 1][..i] == w[..i];
      soma := soma + DigitValue(d[i]) * (start - i);
      i := i + 1;
    }
    assert d[..n] == d[..n][..n] && w == w[..n];
  }

  /** validarCPF, step by step as in the source. */
  method ValidateCpf(cpf: string) returns (ok: bool)
    ensures ok == IsValidCpf(cpf)
  {
    var d := CleanDocument(cpf);
    if |d| != 11 {
      return false;
    }
    if AllSame(d) {
      return false;
    }
    var soma := DescendingWeightedSum(d, 9, 10);
    assert seq(9, i requires 0 <= i < 9 => 10 - i) == CpfWeights1;
    var digito1 := CheckDigit(soma);
    if DigitValue(d[9]) != digito1 {
      return false;
    }
    soma := DescendingWeightedSum(d, 10, 11);
    assert seq(10, i requires 0 <= i < 10 => 11 - i) == CpfWeights2;
    var digito2 := CheckDigit(soma);
    return DigitValue(d[10]) == digito2;
  }

  /** The two check digits the CPF rule demands after nine base digits. */
  function CpfCheckDigits(base: string): (r: string)
    requires |base| == 9 && AllDigits(base)
    ensures |r| == 2 && AllDigits(r)
  {
    var d1 := CheckDigit(Dot(base, CpfWeights1));
    var d2 := CheckDigit(Dot(base + [DigitChar(d1)], CpfWeights2));
    [DigitChar(d1), DigitChar(d2)]
  }

  lemma DigitCharOfValue(c: char)
    requires IsDigit(c)
    ensures DigitChar(DigitValue(c)) == c
  {
  }

  /** A CPF is valid exactly when its digits are nine base digits followed by
      their check digits and are not all equal: each base has one completion. */
  lemma CpfCompletion(s: string)
    ensures IsValidCpf(s) <==>
      var d := CleanDocument(s);
      |d| == 11 && !AllSame(d) && d == d[..9] + CpfCheckDigits(d[..9])
  {
    var d := CleanDocument(s);
    if |d| == 11 {
      var c := CpfCheckDigits(d[..9]);
      var d1 := CheckDigit(Dot(d[..9], CpfWeights1));
      var eq1 := DigitValue(d[9]) == d1;
      var eq2 := DigitValue(d[10]) == CheckDigit(Dot(d[..10], CpfWeights2));
      if eq1 && eq2 {
        DigitCharOfValue(d[9]);
        DigitCharOfValue(d[10]);
        assert d[..10] == d[..9] + [DigitChar(d1)];
        assert d == d[..9] + c;
      }
      if d == d[..9] + c {
        assert d[9] == c[0] && d[10] == c[1];
        assert d[..10] == d[..9] + [DigitChar(d1)];
      }
    }
  }

  /** Validation sees only the digits, so it agrees on a document and its
      cleaned form. */
  lemma CpfIgnoresPunctuation(s: string)
    ensures IsValidCpf(s) == IsValidCpf(CleanDocument(s))
  {
    CleanDocumentFixpoint(s);
  }

  function Sum(ws: seq<int>): int
  {
    if |ws| == 0 then 0 else Sum(ws[..|ws| - 1]) + ws[|ws| - 1]
  }

  lemma {:induction false} DotOfRepeated(d: string, ws: seq<int>)
    requires AllDigits(d) && |d| == |ws| && AllSame(d) && |d| > 0
    ensures Dot(d, ws) == DigitValue(d[0]) * Sum(ws)
  {
    if |d| > 1 {
      DotOfRepeated(d[..|d| - 1], ws[..|ws| - 1]);
    }
  }

  /** Eleven equal digits satisfy both check-digit equations, so the
      all-equal rule is what rejects them. */
  lemma RepeatedDigitsPassChecksum(c: char)
    requires IsDigit(c)
    ensures var d := seq(11, _ => c);
      && DigitValue(d[9]) == CheckDigit(Dot(d[..9], CpfWeights1))
      && DigitValue(d[10]) == CheckDigit(Dot(d[..10], CpfWeights2))
      && !IsValidCpf(d)
  {
    var d := seq(11, _ => c);
    assert AllDigits(d) && AllSame(d);
    DotOfRepeated(d[..9], CpfWeights1);
    DotOfRepeated(d[..10], CpfWeights2);
    CpfWeightSums();
    RepeatedCheckDigits(DigitValue(c));
    CleanDocumentFixpoint(d);
  }

  lemma CpfWeightSums()
    ensures Sum(CpfWeights1) == 54 && Sum(CpfWeights2) == 65
  {
    var w := CpfWeights2;
    assert w[..1] == [11] && w[..2][..1] == w[..1] && w[..3][..2] == w[..2];
    assert w[..4][..3] == w[..3] && w[..5][..4] == w[..4] && w[..6][..5] == w[..5];
    assert w[..7][..6] == w[..6] && w[..8][..7] == w[..7] && w[..9][..8] == w[..8];
    assert w[..10][..9] == w[..9];
    assert Sum(w[..1]) == 11;
    assert Sum(w[..3]) == 30;
    assert Sum(w[..5]) == 45;
    assert Sum(w[..7]) == 56;
    assert Sum(w[..9]) == 63;
    assert w[..10] == w;
    assert Sum(CpfWeights1) == 54 by {
      var u := CpfWeights1;
      assert u[..1] == [10] && u[..2][..1] == u[..1] && u[..3][..2] == u[..2];
      assert u[..4][..3] == u[..3] && u[..5][..4] == u[..4] && u[..6][..5] == u[..5];
      assert u[..7][..6] == u[..6] && u[..8][..7] == u[..7] && u[..9][..8] == u[..8];
      assert Sum(u[..1]) == 10;
      assert Sum(u[..3]) == 27;
      assert Sum(u[..5]) == 40;
      assert Sum(u[..7]) == 49;
      assert u[..9] == u;
    }
  }

  /** For every digit value v, v is its own check digit under both weight sums. */
  lemma RepeatedCheckDigits(v: nat)
    requires v < 10
    ensures CheckDigit(v * 54) == v && CheckDigit(v * 65) == v
  {
    if v == 0 {
    } else if v == 1 {
    } else if v == 2 {
    } else if v == 3 {
    } else if v == 4 {
    } else if v == 5 {
    } else if v == 6 {
    } else if v == 7 {
    } else if v == 8 {
    } else {
      assert v == 9;
    }
  }

  // ---------------------------------------------------------------------
  // CNPJ

  const CnpjWeights1: seq<int> := [5, 4, 3, 2, 9, 8, 7, 6, 5, 4, 3, 2]
  const CnpjWeights2: seq<int> := [6, 5, 4, 3, 2, 9, 8, 7, 6, 5, 4, 3, 2]

  /** The CNPJ rule: fourteen digits, not all equal, digits 13 and 14 the check
      digits of the first 12 and 13 under the weights above. */
  predicate IsValidCnpj(s: string)
  {
    var d := CleanDocument(s);
    && |d| == 14
    && !AllSame(d)
    && DigitValue(d[12]) == CheckDigit(Dot(d[..12], CnpjWeights1))
    && DigitValue(d[13]) == CheckDigit(Dot(d[..13], CnpjWeights2))
  }

  /** The weight at position `j` of a pass over `size` digits: counts down
      from `size - 7` to 2, then restarts at 9. */
  function CnpjWeight(size: int, j: int): int
  {
    var p := size - 7 - j;
    if p >= 2 then p else p + 8
  }

  /** One pass of the source's loop, with `pos` decremented and wrapped to 9. */
  method CnpjPass(d: string, tamanho: int) returns (soma: int)
    requires AllDigits(d) && tamanho in {12, 13} && tamanho <= |d|
    ensures soma == Dot(d[..tamanho], seq(tamanho, j requires 0 <= j < tamanho => CnpjWeight(tamanho, j)))
  {
    ghost var w := seq(tamanho, j requires 0 <= j < tamanho => CnpjWeight(tamanho, j));
    var numeros := d[..tamanho];
    soma := 0;
    var pos := tamanho - 7;
    var i := tamanho;
    while i >= 1
      invariant 0 <= i <= tamanho
      invariant soma == Dot(numeros[..tamanho - i], w[..tamanho - i])
      invariant i >= 1 ==> pos == CnpjWeight(tamanho, tamanho - i)
    {
      var j := tamanho - i;
      assert numeros[..j + 1][..j] == numeros[..j];
      assert w[..j + 1][..j] == w[..j];
      soma := soma + DigitValue(numeros[j]) * pos;
      pos := pos - 1;
      if pos < 2 {
        pos := 9;
      }
      i := i - 1;
    }
    assert numeros[..tamanho] == numeros && w[..tamanho] == w;
  }

  /** validarCNPJ, step by step as in the source. */
  method ValidateCnpj(cnpj: string) returns (ok: bool)
    ensures ok == IsValidCnpj(cnpj)
  {
    var d := CleanDocument(cnpj);
    if |d| != 14 {
      return false;
    }
    if AllSame(d) {
      return false;
    }
    var soma := CnpjPass(d, 12);
    assert seq(12, j requires 0 <= j < 12 => CnpjWeight(12, j)) == CnpjWeights1;
    if CheckDigit(soma) != DigitValue(d[12]) {
      return false;
    }
    soma := CnpjPass(d, 13);
    assert seq(13, j requires 0 <= j < 13 => CnpjWeight(13, j)) == CnpjWeights2;
    return CheckDigit(soma) == DigitValue(d[13]);
  }

  // ---------------------------------------------------------------------
  // Formatting documents

  /** The CPF display pattern `^\d{3}\.\d{3}\.\d{3}-\d{2}$`. */
  predicate IsCpfPattern(r: string)
  {
    && |r| == 14
    && AllDigits(r[..3]) && r[3] == '.'
    && AllDigits(r[4..7]) && r[7] == '.'
    && AllDigits(r[8..11]) && r[11] == '-'
    && AllDigits(r[12..])
  }

  /** formatarCPF: the first eleven digits become `XXX.XXX.XXX-XX`; fewer than
      eleven digits are returned bare. */
  function FormatCpf(s: string): (r: string)
    ensures |CleanDocument(s)| == 11 ==> IsCpfPattern(r)
    ensures |CleanDocument(s)| < 11 ==> r == CleanDocument(s)
  {
    var c := CleanDocument(s);
    if |c| >= 11 then
      var r := c[..3] + "." + (c[3..6] + "." + (c[6..9] + "-" + c[9..]));
      assert r[..3] == c[..3] && r[4..7] == c[3..6] && r[8..11] == c[6..9];
      assert |c| == 11 ==> r[12..] == c[9..];
      r
    else c
  }

  /** Cleaning undoes the formatting, for every input. */
  lemma FormatCpfRoundTrip(s: string)
    ensures CleanDocument(FormatCpf(s)) == CleanDocument(s)
  {
    var c := CleanDocument(s);
    CleanDocumentFixpoint(s);
    if |c| >= 11 {
      var r3 := c[9..];
      var r2 := c[6..9] + "-" + r3;
      var r1 := c[3..6] + "." + r2;
      calc {
        CleanDocument(FormatCpf(s));
        CleanDocument(c[..3] + "." + r1);
      == { StripSeparator(c[..3], '.', r1); }
        c[..3] + CleanDocument(r1);
      == { StripSeparator(c[3..6], '.', r2); }
        c[..3] + (c[3..6] + CleanDocument(r2));
      == { StripSeparator(c[6..9], '-', r3); CleanDocumentFixpoint(r3); }
        c[..3] + (c[3..6] + (c[6..9] + c[9..]));
      == { assert c[6..9] + c[9..] == c[6..]; }
        c[..3] + (c[3..6] + c[6..]);
      == { assert c[3..6] + c[6..] == c[3..]; }
        c[..3] + c[3..];
      == { assert c[..3] + c[3..] == c; }
        c;
      }
    }
  }

  /** formatarCNPJ: the first fourteen digits become `XX.XXX.XXX/XXXX-XX`. */
  function FormatCnpj(s: string): (r: string)
    ensures |CleanDocument(s)| == 14 ==> |r| == 18 && r[2] == '.' && r[6] == '.' && r[10] == '/' && r[15] == '-'
    ensures |CleanDocument(s)| < 14 ==> r == CleanDocument(s)
  {
    var c := CleanDocument(s);
    if |c| >= 14 then c[..2] + "." + (c[2..5] + "." + (c[5..8] + "/" + (c[8..12] + "-" + c[12..])))
    else c
  }

  lemma FormatCnpjRoundTrip(s: string)
    ensures CleanDocument(FormatCnpj(s)) == CleanDocument(s)
  {
    var c := CleanDocument(s);
    CleanDocumentFixpoint(s);
    if |c| >= 14 {
      var r4 := c[12..];
      var r3 := c[8..12] + "-" + r4;
      var r2 := c[5..8] + "/" + r3;
      var r1 := c[2..5] + "." + r2;
      calc {
        CleanDocument(FormatCnpj(s));
        CleanDocument(c[..2] + "." + r1);
      == { StripSeparator(c[..2], '.', r1); }
        c[..2] + CleanDocument(r1);
      == { StripSeparator(c[2..5], '.', r2); }
        c[..2] + (c[2..5] + CleanDocument(r2));
      == { StripSeparator(c[5..8], '/', r3); }
        c[..2] + (c[2..5] + (c[5..8] + CleanDocument(r3)));
      == { StripSeparator(c[8..12], '-', r4); CleanDocumentFixpoint(r4); }
        c[..2] + (c[2..5] + (c[5..8] + (c[8..12] + c[12..])));
      == { assert c[8..12] + c[12..] == c[8..]; }
        c[..2] + (c[2..5] + (c[5..8] + c[8..]));
      == { assert c[5..8] + c[8..] == c[5..]; }
        c[..2] + (c[2..5] + c[5..]);
      == { assert c[2..5] + c[5..] == c[2..]; }
        c[..2] + c[2..];
      == { assert c[..2] + c[2..] == c; }
        c;
      }
    }
  }

  /** Cleaning drops a separator after a run of digits. */
  lemma StripSeparator(a: string, x: char, b: string)
    requires AllDigits(a) && !IsDigit(x)
    ensures CleanDocument(a + [x] + b) == a + CleanDocument(b)
  {
    KeepSkip(a, x, b, IsDigit);
  }

  // ---------------------------------------------------------------------
  // Vehicle plates

  /** PLACA_ANTIGA `^[A-Z]{3}-\d{4}$`. */
  predicate IsOldPlate(u: string)
  {
    |u| == 8 && AllUpper(u[..3]) && u[3] == '-' && AllDigits(u[4..])
  }

  /** PLACA_MERCOSUL `^[A-Z]{3}\d[A-Z]\d{2}$`. */
  predicate IsMercosulPlate(u: string)
  {
    |u| == 7 && AllUpper(u[..3]) && IsDigit(u[3]) && IsUpper(u[4]) && AllDigits(u[5..])
  }

  /** validarPlaca: the upper-cased input matches one of the two plate patterns. */
  predicate IsValidPlate(p: string)
  {
    var u := ToUpper(p);
    IsOldPlate(u) || IsMercosulPlate(u)
  }

  /** formatarPlaca: keep ASCII letters and digits, upper-case them; seven
      characters in Mercosul shape stay as they are, any other seven get a dash
      after the third; other lengths are returned cleaned. */
  function FormatPlate(p: string): (r: string)
    ensures forall i :: 0 <= i < |r| ==> IsUpper(r[i]) || IsDigit(r[i]) || (i == 3 && r[i] == '-')
  {
    var c := ToUpper(Keep(p, IsAlnum));
    if |c| == 7 && IsMercosulPlate(c) then c
    else if |c| == 7 then c[..3] + "-" + c[3..]
    else c
  }

  /** An old-style plate loses exactly its dash to the cleaning step. */
  lemma OldPlateKeep(p: string)
    requires IsOldPlate(ToUpper(p))
    ensures Keep(p, IsAlnum) == p[..3] + p[4..]
  {
    var u := ToUpper(p);
    assert p[3] == '-';
    assert forall i :: 0 <= i < 3 ==> IsAlnum(p[..3][i]) by {
      forall i | 0 <= i < 3 ensures IsAlnum(p[..3][i]) {
        assert u[..3][i] == u[i];
      }
    }
    assert AllDigits(p[4..]) by {
      forall i | 0 <= i < 4 ensures IsDigit(p[4..][i]) {
        assert u[4..][i] == u[4 + i];
      }
    }
    assert p == p[..3] + [p[3]] + p[4..];
    KeepSkip(p[..3], '-', p[4..], IsAlnum);
    KeepIdentity(p[4..], IsAlnum);
  }

  lemma OldPlateFormats(p: string)
    requires IsOldPlate(ToUpper(p))
    ensures FormatPlate(p) == ToUpper(p)
  {
    var u := ToUpper(p);
    OldPlateKeep(p);
    ToUpperAppend(p[..3], p[4..]);
    var c := ToUpper(Keep(p, IsAlnum));
    assert ToUpper(p[..3]) == u[..3];
    assert ToUpper(p[4..]) == u[4..];
    assert c == u[..3] + u[4..];
    assert c[4] == u[5] && !IsUpper(c[4]);
    assert c[..3] + "-" + c[3..] == u;
  }

  lemma MercosulPlateFormats(p: string)
    requires IsMercosulPlate(ToUpper(p))
    ensures FormatPlate(p) == ToUpper(p)
  {
    var u := ToUpper(p);
    forall i | 0 <= i < |p|
      ensures IsAlnum(p[i])
    {
      assert IsAlnum(u[i]) by {
        if i < 3 { assert u[..3][i] == u[i]; }
        else if i > 4 { assert u[5..][i - 5] == u[i]; }
      }
    }
    KeepIdentity(p, IsAlnum);
  }

  /** The validator and the formatter agree: an accepted plate formats to its
      own upper-cased text, which is accepted again. */
  lemma ValidPlateFormatsToItself(p: string)
    requires IsValidPlate(p)
    ensures FormatPlate(p) == ToUpper(p)
    ensures IsValidPlate(FormatPlate(p))
  {
    ToUpperIdempotent(p);
    if IsOldPlate(ToUpper(p)) {
      OldPlateFormats(p);
    } else {
      MercosulPlateFormats(p);
    }
  }

  /** Formatting a formatted plate changes nothing. */
  lemma FormatPlateIdempotent(p: string)
    ensures FormatPlate(FormatPlate(p)) == FormatPlate(p)
  {
    var k := Keep(p, IsAlnum);
    var c := ToUpper(k);
    assert forall i :: 0 <= i < |c| ==> IsAlnum(c[i]) && !IsLower(c[i]);
    var r := FormatPlate(p);
    if |c| == 7 && !IsMercosulPlate(c) {
      assert c == c[..3] + c[3..];
      KeepSkip(c[..3], '-', c[3..], IsAlnum);
      KeepIdentity(c[3..], IsAlnum);
      ToUpperIdentity(c);
    } else {
      KeepIdentity(c, IsAlnum);
      ToUpperIdentity(c);
    }
  }

  // ---------------------------------------------------------------------
  // Phone numbers

  /** The class `\s` of JavaScript regular expressions. */
  predicate IsJsSpace(c: char)
  {
    || c == '\t' || c == '\n' || c == '\U{000B}' || c == '\U{000C}' || c == '\r' || c == ' '
    || c == '\U{00A0}' || c == '\U{1680}' || ('\U{2000}' <= c <= '\U{200A}')
    || c == '\U{2028}' || c == '\U{2029}' || c == '\U{202F}' || c == '\U{205F}'
    || c == '\U{3000}' || c == '\U{FEFF}'
  }

  /** The tail `\d{4,5}-\d{4}` of the phone pattern. */
  predicate IsSubscriberNumber(t: string)
  {
    && (|t| == 9 || |t| == 10)
    && AllDigits(t[..|t| - 5]) && t[|t| - 5] == '-' && AllDigits(t[|t| - 4..])
  }

  /** validarTelefone, the TELEFONE pattern `^\(\d{2}\)\s?\d{4,5}-\d{4}$`. */
  predicate IsValidPhone(s: string)
  {
    && |s| >= 4 && s[0] == '(' && IsDigit(s[1]) && IsDigit(s[2]) && s[3] == ')'
    && (IsSubscriberNumber(s[4..]) || (|s| > 4 && IsJsSpace(s[4]) && IsSubscriberNumber(s[5..])))
  }

  lemma SubscriberDigits(t: string)
    requires IsSubscriberNumber(t)
    ensures CleanDocument(t) == t[..|t| - 5] + t[|t| - 4..]
  {
    var k := |t| - 5;
    assert t == t[..k] + [t[k]] + t[k + 1..];
    KeepSkip(t[..k], '-', t[k + 1..], IsDigit);
    KeepIdentity(t[k + 1..], IsDigit);
  }

  /** An accepted phone number carries an area code and eight or nine digits:
      ten or eleven digits in all. */
  lemma PhoneDigitCount(s: string)
    requires IsValidPhone(s)
    ensures |CleanDocument(s)| == 10 || |CleanDocument(s)| == 11
    ensures CleanDocument(s)[..2] == s[1..3]
  {
    PhoneTailDigits(s);
    assert s == [] + ['('] + (s[1..3] + s[3..]);
    KeepSkip([], '(', s[1..3] + s[3..], IsDigit);
    KeepAppend(s[1..3], s[3..], IsDigit);
    KeepIdentity(s[1..3], IsDigit);
  }

  /** After the area code, an accepted phone number holds eight or nine digits. */
  lemma PhoneTailDigits(s: string)
    requires IsValidPhone(s)
    ensures |CleanDocument(s[3..])| == 8 || |CleanDocument(s[3..])| == 9
  {
    assert s[3..] == [] + [')'] + s[4..];
    KeepSkip([], ')', s[4..], IsDigit);
    if IsSubscriberNumber(s[4..]) {
      SubscriberDigits(s[4..]);
    } else {
      assert s[4..] == [] + [s[4]] + s[5..];
      KeepSkip([], s[4], s[5..], IsDigit);
      SubscriberDigits(s[5..]);
    }
  }

  /** The canonical shape `(DD) NNNNN-NNNN` (or with four leading digits) is
      accepted. */
  lemma CanonicalPhoneAccepted(area: string, number: string)
    requires |area| == 2 && AllDigits(area)
    requires (|number| == 8 || |number| == 9) && AllDigits(number)
    ensures IsValidPhone("(" + area + ") " + number[..|number| - 4] + "-" + number[|number| - 4..])
  {
    var s := "(" + area + ") " + number[..|number| - 4] + "-" + number[|number| - 4..];
    assert s[5..] == number[..|number| - 4] + "-" + number[|number| - 4..];
  }

  // ---------------------------------------------------------------------
  // Dates and years

  /** validarDataFutura: the calendar day of `d` is today or later. */
  predicate IsNotPastDate(d: int, now: int)
  {
    Dates.StartOfDay(d) >= Dates.StartOfDay(now)
  }

  /** A date is "not in the past" exactly when it is at or after today's
      local midnight; time of day is ignored. */
  lemma NotPastDateMeaning(d: int, now: int)
    ensures IsNotPastDate(d, now) <==> d >= Dates.StartOfDay(now)
    ensures IsNotPastDate(d, now) <==> Dates.LocalDay(d) >= Dates.LocalDay(now)
    ensures d >= now ==> IsNotPastDate(d, now)
  {
    Dates.SameDayIffSameStart(now, d);
    var s := Dates.StartOfDay(now);
    Dates.SameDayIffSameStart(s, d);
    if d >= s {
      assert s + Dates.LocalOffset <= d + Dates.LocalOffset;
      DivMonotone(s + Dates.LocalOffset, d + Dates.LocalOffset);
    }
  }

  lemma DivMonotone(a: int, b: int)
    requires a <= b
    ensures a / Dates.DAY <= b / Dates.DAY
  {
  }

  /** validarAnoVeiculo: from 1900 to the year after the current local year. */
  predicate IsValidVehicleYear(y: int, now: int)
  {
    1900 <= y <= Dates.CivilOf(now).year + 1
  }

  /** The upper bound of a vehicle year is read off the calendar: if
      `yr-m-d` is today's local date, the years 1900 to `yr + 1` pass and no
      others. */
  lemma VehicleYearRange(y: int, now: int, yr: int, m: int, d: int)
    requires Dates.IsValidDate(yr, m, d) && Dates.DaysFromCivil(yr, m, d) == Dates.LocalDay(now)
    ensures IsValidVehicleYear(y, now) <==> 1900 <= y <= yr + 1
  {
    Dates.CivilOfCharacterised(now, yr, m, d);
  }
}

=== FILE: vehicles.dfy ===
/** The resident's vehicles (vehicles.service.ts). Plates are unique across
    the whole collection, removed vehicles included. */
module Vehicles {
  import opened Wrappers
  import opened Store
  import Validation

  datatype VehicleType = Car | Motorcycle | Pickup | Suv | Van

  datatype Vehicle = Vehicle(
    id: Id,
    residentId: Id,
    kind: VehicleType,
    licensePlate: string,
    brand: string,
    model: string,
    color: string,
    year: Option<int>,
    fuel: Option<string>,
    notes: Option<string>,
    active: bool,
    createdAt: int)

  type Vehicles = map<Id, Vehicle>

  datatype Error = InvalidPlate | PlateTaken | InvalidYear | NotFound | Forbidden

  datatype NewVehicle = NewVehicle(
    kind: VehicleType,
    plate: string,
    brand: string,
    model: string,
    color: string,
    year: Option<int>,
    fuel: Option<string>,
    notes: Option<string>)

  datatype VehicleChanges = VehicleChanges(
    kind: Option<VehicleType>,
    plate: Option<string>,
    brand: Option<string>,
    model: Option<string>,
    color: Option<string>,
    year: Option<int>,
    fuel: Option<string>,
    notes: Option<string>)

  /** JavaScript truthiness of an optional number: present and not zero. */
  predicate TruthyYear(y: Option<int>)
  {
    y.Some? && y.value != 0
  }

  /** Some vehicle other than `except` already carries `plate`. */
  predicate PlateUsed(vs: Vehicles, plate: string, except: Option<Id>)
  {
    exists k :: k in vs && Some(k) != except && vs[k].licensePlate == plate
  }

  /** Every vehicle sits under its own id, carries a valid plate in its
      formatted form, and no two vehicles share a plate. */
  predicate Valid(vs: Vehicles)
  {
    (forall k :: k in vs ==>
      vs[k].id == k &&
      Validation.IsValidPlate(vs[k].licensePlate) &&
      Validation.FormatPlate(vs[k].licensePlate) == vs[k].licensePlate) &&
    (forall a, b :: a in vs && b in vs && a != b ==> vs[a].licensePlate != vs[b].licensePlate)
  }

  /** A formatted valid plate is valid and already in formatted form. */
  lemma FormattedPlate(p: string)
    requires Validation.IsValidPlate(p)
    ensures Validation.IsValidPlate(Validation.FormatPlate(p))
    ensures Validation.FormatPlate(Validation.FormatPlate(p)) == Validation.FormatPlate(p)
  {
    Validation.ValidPlateFormatsToItself(p);
    Validation.FormatPlateIdempotent(p);
  }

  function Create(vs: Vehicles, residentId: Id, input: NewVehicle, id: Id, now: int): (r: Result<Vehicles, Error>)
    requires id !in vs
    ensures !Validation.IsValidPlate(input.plate) ==> r == Err(InvalidPlate)
    ensures Validation.IsValidPlate(input.plate) && PlateUsed(vs, Validation.FormatPlate(input.plate), None) ==>
      r == Err(PlateTaken)
    ensures
      && Validation.IsValidPlate(input.plate) && !PlateUsed(vs, Validation.FormatPlate(input.plate), None)
      && TruthyYear(input.year) && !Validation.IsValidVehicleYear(input.year.value, now)
      ==> r == Err(InvalidYear)
    ensures r.Ok? <==>
      Validation.IsValidPlate(input.plate) &&
      !PlateUsed(vs, Validation.FormatPlate(input.plate), None) &&
      (TruthyYear(input.year) ==> Validation.IsValidVehicleYear(input.year.value, now))
    ensures r.Ok? ==>
      r.value.Keys == vs.Keys + {id} && (forall k :: k in vs ==> r.value[k] == vs[k])
    ensures r.Ok? ==>
      var v := r.value[id];
      v.id == id && v.residentId == residentId && v.active && v.createdAt == now &&
      v.licensePlate == Validation.FormatPlate(input.plate) &&
      Validation.IsValidPlate(v.licensePlate) &&
      v.kind == input.kind && v.year == input.year &&
      v.brand == input.brand && v.model == input.model && v.color == input.color &&
      v.fuel == input.fuel && v.notes == input.notes
  {
    if !Validation.IsValidPlate(input.plate) then
      Err(InvalidPlate)
    else
      var plate := Validation.FormatPlate(input.plate);
      if PlateUsed(vs, plate, None) then
        Err(PlateTaken)
      else if TruthyYear(input.year) && !Validation.IsValidVehicleYear(input.year.value, now) then
        Err(InvalidYear)
      else
        FormattedPlate(input.plate);
        Ok(vs[id := Vehicle(
          id, residentId, input.kind, plate, input.brand, input.model, input.color,
          input.year, input.fuel, input.notes, true, now)])
  }

  function FindOne(vs: Vehicles, id: Id, residentId: Id): (r: Result<Vehicle, Error>)
    ensures r == Err(NotFound) <==> id !in vs
    ensures r == Err(Forbidden) <==> id in vs && vs[id].residentId != residentId
    ensures r.Ok? <==> id in vs && vs[id].residentId == residentId
    ensures r.Ok? ==> r.value == vs[id]
  {
    if id !in vs then Err(NotFound)
    else if vs[id].residentId != residentId then Err(Forbidden)
    else Ok(vs[id])
  }

  /** The merge step of update: the plate when truthy (already formatted by
      the caller), every other field whenever present. */
  function Apply(v: Vehicle, ch: VehicleChanges): Vehicle
  {
    v.(
      licensePlate := if Truthy(ch.plate) then Validation.FormatPlate(ch.plate.value) else v.licensePlate,
      kind := ch.kind.GetOr(v.kind),
      brand := ch.brand.GetOr(v.brand),
      model := ch.model.GetOr(v.model),
      color := ch.color.GetOr(v.color),
      year := if ch.year.Some? then ch.year else v.year,
      fuel := if ch.fuel.Some? then ch.fuel else v.fuel,
      notes := if ch.notes.Some? then ch.notes else v.notes)
  }

  function Update(vs: Vehicles, id: Id, residentId: Id, ch: VehicleChanges, now: int): (r: Result<Vehicles, Error>)
    ensures FindOne(vs, id, residentId).Err? ==> r == Err(FindOne(vs, id, residentId).error)
    ensures FindOne(vs, id, residentId).Ok? && Truthy(ch.plate) && !Validation.IsValidPlate(ch.plate.value) ==>
      r == Err(InvalidPlate)
    ensures
      && FindOne(vs, id, residentId).Ok? && Truthy(ch.plate) && Validation.IsValidPlate(ch.plate.value)
      && PlateUsed(vs, Validation.FormatPlate(ch.plate.value), Some(id))
      ==> r == Err(PlateTaken)
    ensures
      && FindOne(vs, id, residentId).Ok?
      && (Truthy(ch.plate) ==>
        Validation.IsValidPlate(ch.plate.value) &&
        !PlateUsed(vs, Validation.FormatPlate(ch.plate.value), Some(id)))
      && TruthyYear(ch.year) && !Validation.IsValidVehicleYear(ch.year.value, now)
      ==> r == Err(InvalidYear)
    ensures r.Ok? <==>
      FindOne(vs, id, residentId).Ok? &&
      (Truthy(ch.plate) ==>
        Validation.IsValidPlate(ch.plate.value) &&
        !PlateUsed(vs, Validation.FormatPlate(ch.plate.value), Some(id))) &&
      (TruthyYear(ch.year) ==> Validation.IsValidVehicleYear(ch.year.value, now))
    ensures r.Ok? ==>
      r.value.Keys == vs.Keys && (forall k :: k in vs && k != id ==> r.value[k] == vs[k])
    ensures r.Ok? ==>
      var (v, w) := (vs[id], r.value[id]);
      w.id == v.id && w.residentId == v.residentId && w.active == v.active && w.createdAt == v.createdAt &&
      (Truthy(ch.plate) ==>
        w.licensePlate == Validation.FormatPlate(ch.plate.value) && Validation.IsValidPlate(ch.plate.value)) &&
      (!Truthy(ch.plate) ==> w.licensePlate == v.licensePlate)
    ensures r.Ok? ==>
      var (v, w) := (vs[id], r.value[id]);
      w.kind == ch.kind.GetOr(v.kind) &&
      w.brand == ch.brand.GetOr(v.brand) &&
      w.model == ch.model.GetOr(v.model) &&
      w.color == ch.color.GetOr(v.color) &&
      w.year == (if ch.year.Some? then ch.year else v.year) &&
      w.fuel == (if ch.fuel.Some? then ch.fuel else v.fuel) &&
      w.notes == (if ch.notes.Some? then ch.notes else v.notes)
  {
    var v :- FindOne(vs, id, residentId);
    if Truthy(ch.plate) && !Validation.IsValidPlate(ch.plate.value) then
      Err(InvalidPlate)
    else if Truthy(ch.plate) && PlateUsed(vs, Validation.FormatPlate(ch.plate.value), Some(id)) then
      Err(PlateTaken)
    else if TruthyYear(ch.year) && !Validation.IsValidVehicleYear(ch.year.value, now) then
      Err(InvalidYear)
    else
      Ok(vs[id := Apply(v, ch)])
  }

  function Remove(vs: Vehicles, id: Id, residentId: Id): (r: Result<Vehicles, Error>)
    ensures FindOne(vs, id, residentId).Err? ==> r == Err(FindOne(vs, id, residentId).error)
    ensures r.Ok? <==> FindOne(vs, id, residentId).Ok?
    ensures r.Ok? ==> r.value == vs[id := vs[id].(active := false)]
  {
    var v :- FindOne(vs, id, residentId);
    Ok(vs[id := v.(active := false)])
  }

  /** Storing one vehicle whose plate is valid, formatted and not carried by
      any other vehicle keeps the collection valid. */
  lemma StoreValid(vs: Vehicles, k: Id, v: Vehicle)
    requires Valid(vs) && v.id == k
    requires Validation.IsValidPlate(v.licensePlate)
    requires Validation.FormatPlate(v.licensePlate) == v.licensePlate
    requires forall j :: j in vs && j != k ==> vs[j].licensePlate != v.licensePlate
    ensures Valid(vs[k := v])
  {
    var after := vs[k := v];
    forall a, b | a in after && b in after && a != b
      ensures after[a].licensePlate != after[b].licensePlate
    {
      if a != k && b != k {
        assert vs[a].licensePlate != vs[b].licensePlate;
      }
    }
  }

  /** Create, update and remove keep plates valid, formatted and unique. */
  lemma CreatePreservesValid(vs: Vehicles, residentId: Id, input: NewVehicle, id: Id, now: int)
    requires Valid(vs) && id !in vs
    requires Create(vs, residentId, input, id, now).Ok?
    ensures Valid(Create(vs, residentId, input, id, now).value)
  {
    var after := Create(vs, residentId, input, id, now).value;
    var v := after[id];
    assert after == vs[id := v];
    FormattedPlate(input.plate);
    forall j | j in vs && j != id
      ensures vs[j].licensePlate != v.licensePlate
    {
      assert !(j in vs && Some(j) != None && vs[j].licensePlate == v.licensePlate);
    }
    StoreValid(vs, id, v);
  }

  lemma UpdatePreservesValid(vs: Vehicles, id: Id, residentId: Id, ch: VehicleChanges, now: int)
    requires Valid(vs)
    requires Update(vs, id, residentId, ch, now).Ok?
    ensures Valid(Update(vs, id, residentId, ch, now).value)
  {
    var after := Update(vs, id, residentId, ch, now).value;
    var w := Apply(vs[id], ch);
    assert after == vs[id := w];
    if Truthy(ch.plate) {
      FormattedPlate(ch.plate.value);
      forall j | j in vs && j != id
        ensures vs[j].licensePlate != w.licensePlate
      {
        assert !(j in vs && Some(j) != Some(id) && vs[j].licensePlate == w.licensePlate);
      }
    } else {
      assert w.licensePlate == vs[id].licensePlate;
    }
    StoreValid(vs, id, w);
  }

  lemma RemovePreservesValid(vs: Vehicles, id: Id, residentId: Id)
    requires Valid(vs)
    requires Remove(vs, id, residentId).Ok?
    ensures Valid(Remove(vs, id, residentId).value)
  {
    var after := Remove(vs, id, residentId).value;
    assert after.Keys == vs.Keys;
    forall k | k in vs
      ensures after[k].id == vs[k].id && after[k].licensePlate == vs[k].licensePlate
    {
    }
    SamePlatesValid(vs, after);
  }

  /** Validity depends only on each vehicle's id and plate. */
  lemma SamePlatesValid(vs: Vehicles, after: Vehicles)
    requires Valid(vs) && after.Keys == vs.Keys
    requires forall k :: k in vs ==> after[k].id == vs[k].id && after[k].licensePlate == vs[k].licensePlate
    ensures Valid(after)
  {
    forall a, b | a in after && b in after && a != b
      ensures after[a].licensePlate != after[b].licensePlate
    {
      assert vs[a].licensePlate != vs[b].licensePlate;
    }
  }

  /** A removed vehicle still holds its plate: registering it again conflicts. */
  lemma RemovedPlateStaysTaken(vs: Vehicles, id: Id, residentId: Id, input: NewVehicle, newId: Id, now: int)
    requires Remove(vs, id, residentId).Ok?
    requires newId !in vs
    requires Validation.IsValidPlate(input.plate)
    requires Validation.FormatPlate(input.plate) == vs[id].licensePlate
    ensures Create(Remove(vs, id, residentId).value, residentId, input, newId, now) == Err(PlateTaken)
  {
    var after := Remove(vs, id, residentId).value;
    assert after[id].licensePlate == vs[id].licensePlate;
  }

  /** Re-submitting a vehicle's own plate on update is not a conflict. */
  lemma OwnPlateIsNoConflict(vs: Vehicles, id: Id, residentId: Id, ch: VehicleChanges, now: int)
    requires Valid(vs)
    requires FindOne(vs, id, residentId).Ok?
    requires Truthy(ch.plate) && ch.plate.value == vs[id].licensePlate
    requires !TruthyYear(ch.year)
    ensures Update(vs, id, residentId, ch, now).Ok?
  {
  }

  // ---------------------------------------------------------------------
  // Listings

  predicate Listed(v: Vehicle, residentId: Id)
  {
    v.residentId == residentId && v.active
  }

  function ListedIds(vs: Vehicles, residentId: Id): set<Id>
  {
    set k | k in vs && Listed(vs[k], residentId)
  }

  /** findAll: the resident's vehicles not removed, newest first. */
  method FindAll(vs: Vehicles, residentId: Id) returns (ids: seq<Id>)
    ensures forall i :: 0 <= i < |ids| ==> ids[i] in ListedIds(vs, residentId)
    ensures forall k :: k in ListedIds(vs, residentId) ==> k in ids
    ensures Distinct(ids)
    ensures forall i, j :: 0 <= i < j < |ids| ==> vs[ids[i]].createdAt >= vs[ids[j]].createdAt
  {
    ids := Select(vs, (v: Vehicle) => Listed(v, residentId), (v: Vehicle) => -v.createdAt);
  }

  /** count: as many as findAll lists. */
  method Count(vs: Vehicles, residentId: Id) returns (n: nat)
    ensures n == |ListedIds(vs, residentId)|
  {
    var ids := FindAll(vs, residentId);
    DistinctCardinality(ids);
    assert (set i | i in ids) == ListedIds(vs, residentId);
    n := |ids|;
  }
}

=== FILE: visitors.dfy ===
/** The resident's visitor list (visitors.service.ts). Visitors are never
    deleted: removal clears `active`. */
module Visitors {
  import opened Wrappers
  import opened Store
  import Text
  import Validation

  datatype Visitor = Visitor(
    id: Id,
    residentId: Id,
    name: string,
    document: string,
    phone: Option<string>,
    validUntil: int,
    accessSchedule: string,
    notes: Option<string>,
    registeredViaLink: bool,
    invitationLinkId: Option<Id>,
    active: bool,
    createdAt: int)

  type Visitors = map<Id, Visitor>

  datatype Error = InvalidDocument | PastValidity | NotFound | Forbidden

  /** The schedule a visitor gets when none (or an empty one) is given. */
  const DefaultSchedule: string := "Qualquer horário"

  /** The body of a create request. */
  datatype NewVisitor = NewVisitor(
    name: string,
    document: string,
    phone: Option<string>,
    validUntil: int,
    accessSchedule: Option<string>,
    notes: Option<string>)

  /** The body of an update request: every field optional. */
  datatype VisitorChanges = VisitorChanges(
    name: Option<string>,
    document: Option<string>,
    phone: Option<string>,
    validUntil: Option<int>,
    accessSchedule: Option<string>,
    notes: Option<string>)

  /** Every stored visitor sits under its own id and carries a cleaned CPF
      that passes the check-digit rule. */
  predicate Valid(vs: Visitors)
  {
    forall k :: k in vs ==>
      vs[k].id == k && Text.AllDigits(vs[k].document) && Validation.IsValidCpf(vs[k].document)
  }

  /** A cleaned valid CPF is still valid and has exactly eleven digits. */
  lemma CleanedCpf(doc: string)
    requires Validation.IsValidCpf(doc)
    ensures Validation.IsValidCpf(Validation.CleanDocument(doc))
    ensures |Validation.CleanDocument(doc)| == 11
  {
    Validation.CpfIgnoresPunctuation(doc);
  }

  // ---------------------------------------------------------------------
  // create / findOne

  function Create(vs: Visitors, residentId: Id, input: NewVisitor, id: Id, now: int): (r: Result<Visitors, Error>)
    requires id !in vs
    ensures !Validation.IsValidCpf(input.document) ==> r == Err(InvalidDocument)
    ensures Validation.IsValidCpf(input.document) && !Validation.IsNotPastDate(input.validUntil, now) ==>
      r == Err(PastValidity)
    ensures r.Ok? <==>
      Validation.IsValidCpf(input.document) && Validation.IsNotPastDate(input.validUntil, now)
    ensures r.Ok? ==>
      r.value.Keys == vs.Keys + {id} && (forall k :: k in vs ==> r.value[k] == vs[k])
    ensures r.Ok? ==>
      var v := r.value[id];
      v.id == id && v.residentId == residentId && v.active && !v.registeredViaLink &&
      v.invitationLinkId.None? && v.createdAt == now &&
      v.name == input.name && v.phone == input.phone && v.notes == input.notes &&
      v.document == Validation.CleanDocument(input.document) &&
      |v.document| == 11 && Validation.IsValidCpf(v.document) &&
      v.validUntil == input.validUntil &&
      v.accessSchedule == (if Truthy(input.accessSchedule) then input.accessSchedule.value else DefaultSchedule) &&
      |v.accessSchedule| > 0
  {
    if !Validation.IsValidCpf(input.document) then
      Err(InvalidDocument)
    else if !Validation.IsNotPastDate(input.validUntil, now) then
      Err(PastValidity)
    else
      CleanedCpf(input.document);
      var v := Visitor(
        id, residentId, input.name, Validation.CleanDocument(input.document), input.phone,
        input.validUntil,
        if Truthy(input.accessSchedule) then input.accessSchedule.value else DefaultSchedule,
        input.notes, false, None, true, now);
      Ok(vs[id := v])
  }

  /** findOne: a missing visitor is NotFound, another resident's is Forbidden.
      The active flag is not consulted. */
  function FindOne(vs: Visitors, id: Id, residentId: Id): (r: Result<Visitor, Error>)
    ensures r == Err(NotFound) <==> id !in vs
    ensures r == Err(Forbidden) <==> id in vs && vs[id].residentId != residentId
    ensures r.Ok? <==> id in vs && vs[id].residentId == residentId
    ensures r.Ok? ==> r.value == vs[id]
  {
    if id !in vs then Err(NotFound)
    else if vs[id].residentId != residentId then Err(Forbidden)
    else Ok(vs[id])
  }

  /** A created visitor is found by its resident and refused to everyone else. */
  lemma CreateThenFindOne(vs: Visitors, residentId: Id, input: NewVisitor, id: Id, now: int, other: Id)
    requires id !in vs
    requires Create(vs, residentId, input, id, now).Ok?
    ensures var after := Create(vs, residentId, input, id, now).value;
      FindOne(after, id, residentId) == Ok(after[id]) &&
      (other != residentId ==> FindOne(after, id, other) == Err(Forbidden))
  {
  }

  // ---------------------------------------------------------------------
  // update / remove

  /** The merge step of update: the document and the date only when truthy,
      the other fields whenever they are present. */
  function Apply(v: Visitor, ch: VisitorChanges): Visitor
  {
    v.(
      document := if Truthy(ch.document) then Validation.CleanDocument(ch.document.value) else v.document,
      validUntil := ch.validUntil.GetOr(v.validUntil),
      name := ch.name.GetOr(v.name),
      phone := if ch.phone.Some? then ch.phone else v.phone,
      accessSchedule := ch.accessSchedule.GetOr(v.accessSchedule),
      notes := if ch.notes.Some? then ch.notes else v.notes)
  }

  function Update(vs: Visitors, id: Id, residentId: Id, ch: VisitorChanges, now: int): (r: Result<Visitors, Error>)
    ensures FindOne(vs, id, residentId).Err? ==> r == Err(FindOne(vs, id, residentId).error)
    ensures FindOne(vs, id, residentId).Ok? && Truthy(ch.document) && !Validation.IsValidCpf(ch.document.value) ==>
      r == Err(InvalidDocument)
    ensures
      && FindOne(vs, id, residentId).Ok?
      && (Truthy(ch.document) ==> Validation.IsValidCpf(ch.document.value))
      && ch.validUntil.Some? && !Validation.IsNotPastDate(ch.validUntil.value, now)
      ==> r == Err(PastValidity)
    ensures r.Ok? <==>
      FindOne(vs, id, residentId).Ok? &&
      (Truthy(ch.document) ==> Validation.IsValidCpf(ch.document.value)) &&
      (ch.validUntil.Some? ==> Validation.IsNotPastDate(ch.validUntil.value, now))
    ensures r.Ok? ==>
      r.value.Keys == vs.Keys && (forall k :: k in vs && k != id ==> r.value[k] == vs[k])
    ensures r.Ok? ==>
      var (v, w) := (vs[id], r.value[id]);
      w.id == v.id && w.residentId == v.residentId && w.active == v.active &&
      w.registeredViaLink == v.registeredViaLink && w.invitationLinkId == v.invitationLinkId &&
      w.createdAt == v.createdAt &&
      (Truthy(ch.document) ==>
        w.document == Validation.CleanDocument(ch.document.value) && Validation.IsValidCpf(w.document)) &&
      (!Truthy(ch.document) ==> w.document == v.document)
    ensures r.Ok? ==>
      var (v, w) := (vs[id], r.value[id]);
      w.validUntil == ch.validUntil.GetOr(v.validUntil) &&
      w.name == ch.name.GetOr(v.name) &&
      w.phone == (if ch.phone.Some? then ch.phone else v.phone) &&
      w.accessSchedule == ch.accessSchedule.GetOr(v.accessSchedule) &&
      w.notes == (if ch.notes.Some? then ch.notes else v.notes)
  {
    var v :- FindOne(vs, id, residentId);
    if Truthy(ch.document) && !Validation.IsValidCpf(ch.document.value) then
      Err(InvalidDocument)
    else if ch.validUntil.Some? && !Validation.IsNotPastDate(ch.validUntil.value, now) then
      Err(PastValidity)
    else
      if Truthy(ch.document) then CleanedCpf(ch.document.value); Ok(vs[id := Apply(v, ch)])
      else Ok(vs[id := Apply(v, ch)])
  }

  const NoChanges: VisitorChanges := VisitorChanges(None, None, None, None, None, None)

  /** An update that carries no field leaves the store as it was. */
  lemma UpdateNothing(vs: Visitors, id: Id, residentId: Id, now: int)
    requires FindOne(vs, id, residentId).Ok?
    ensures Update(vs, id, residentId, NoChanges, now) == Ok(vs)
  {
    assert Apply(vs[id], NoChanges) == vs[id];
    assert vs[id := vs[id]] == vs;
  }

  /** Repeating an update changes nothing more. */
  lemma UpdateIdempotent(vs: Visitors, id: Id, residentId: Id, ch: VisitorChanges, now: int)
    requires Update(vs, id, residentId, ch, now).Ok?
    ensures var once := Update(vs, id, residentId, ch, now).value;
      Update(once, id, residentId, ch, now) == Ok(once)
  {
    var once := Update(vs, id, residentId, ch, now).value;
    if Truthy(ch.document) {
      Validation.CleanDocumentFixpoint(ch.document.value);
    }
    assert Apply(once[id], ch) == once[id];
    assert once[id := once[id]] == once;
  }

  function Remove(vs: Visitors, id: Id, residentId: Id): (r: Result<Visitors, Error>)
    ensures FindOne(vs, id, residentId).Err? ==> r == Err(FindOne(vs, id, residentId).error)
    ensures r.Ok? <==> FindOne(vs, id, residentId).Ok?
    ensures r.Ok? ==> r.value == vs[id := vs[id].(active := false)]
  {
    var v :- FindOne(vs, id, residentId);
    Ok(vs[id := v.(active := false)])
  }

  /** Removing twice is removing once. */
  lemma RemoveIdempotent(vs: Visitors, id: Id, residentId: Id)
    requires Remove(vs, id, residentId).Ok?
    ensures var once := Remove(vs, id, residentId).value;
      Remove(once, id, residentId) == Ok(once)
  {
    var once := Remove(vs, id, residentId).value;
    assert once[id := once[id].(active := false)] == once;
  }

  /** Create, update and remove keep every stored document a cleaned valid CPF. */
  lemma CreatePreservesValid(vs: Visitors, residentId: Id, input: NewVisitor, id: Id, now: int)
    requires Valid(vs) && id !in vs
    requires Create(vs, residentId, input, id, now).Ok?
    ensures Valid(Create(vs, residentId, input, id, now).value)
  {
    var after := Create(vs, residentId, input, id, now).value;
    forall k | k in after
      ensures after[k].id == k && Text.AllDigits(after[k].document) && Validation.IsValidCpf(after[k].document)
    {
      if k != id {
        assert after[k] == vs[k];
      }
    }
  }

  lemma UpdatePreservesValid(vs: Visitors, id: Id, residentId: Id, ch: VisitorChanges, now: int)
    requires Valid(vs)
    requires Update(vs, id, residentId, ch, now).Ok?
    ensures Valid(Update(vs, id, residentId, ch, now).value)
  {
    var after := Update(vs, id, residentId, ch, now).value;
    forall k | k in after
      ensures after[k].id == k && Text.AllDigits(after[k].document) && Validation.IsValidCpf(after[k].document)
    {
      if k != id {
        assert after[k] == vs[k];
      }
    }
  }

  lemma RemovePreservesValid(vs: Visitors, id: Id, residentId: Id)
    requires Valid(vs)
    requires Remove(vs, id, residentId).Ok?
    ensures Valid(Remove(vs, id, residentId).value)
  {
    var after := Remove(vs, id, residentId).value;
    forall k | k in after
      ensures after[k].id == k && Text.AllDigits(after[k].document) && Validation.IsValidCpf(after[k].document)
    {
      assert after[k].id == vs[k].id && after[k].document == vs[k].document;
    }
  }

  // ---------------------------------------------------------------------
  // Listings

  /** findAll's filter: the resident's visitors not removed. */
  predicate Listed(v: Visitor, residentId: Id)
  {
    v.residentId == residentId && v.active
  }

  /** findAtivos's and countAtivos's filter: listed and valid until now or later. */
  predicate Current(v: Visitor, residentId: Id, now: int)
  {
    Listed(v, residentId) && v.validUntil >= now
  }

  function ListedIds(vs: Visitors, residentId: Id): set<Id>
  {
    set k | k in vs && Listed(vs[k], residentId)
  }

  function CurrentIds(vs: Visitors, residentId: Id, now: int): set<Id>
  {
    set k | k in vs && Current(vs[k], residentId, now)
  }

  /** findAll: the resident's listed visitors, newest first. */
  method FindAll(vs: Visitors, residentId: Id) returns (ids: seq<Id>)
    ensures forall i :: 0 <= i < |ids| ==> ids[i] in ListedIds(vs, residentId)
    ensures forall k :: k in ListedIds(vs, residentId) ==> k in ids
    ensures Distinct(ids)
    ensures forall i, j :: 0 <= i < j < |ids| ==> vs[ids[i]].createdAt >= vs[ids[j]].createdAt
  {
    ids := Select(vs, (v: Visitor) => Listed(v, residentId), (v: Visitor) => -v.createdAt);
  }

  /** findAtivos: the resident's current visitors, soonest expiry first. */
  method FindActive(vs: Visitors, residentId: Id, now: int) returns (ids: seq<Id>)
    ensures forall i :: 0 <= i < |ids| ==> ids[i] in CurrentIds(vs, residentId, now)
    ensures forall k :: k in CurrentIds(vs, residentId, now) ==> k in ids
    ensures Distinct(ids)
    ensures forall i, j :: 0 <= i < j < |ids| ==> vs[ids[i]].validUntil <= vs[ids[j]].validUntil
  {
    ids := Select(vs, (v: Visitor) => Current(v, residentId, now), (v: Visitor) => v.validUntil);
  }

  /** countAtivos: as many as findAtivos lists. */
  method CountActive(vs: Visitors, residentId: Id, now: int) returns (n: nat)
    ensures n == |CurrentIds(vs, residentId, now)|
  {
    var ids := FindActive(vs, residentId, now);
    DistinctCardinality(ids);
    assert (set i | i in ids) == CurrentIds(vs, residentId, now);
    n := |ids|;
  }

  /** Creating lists the new visitor for its resident only. */
  lemma CreateLists(vs: Visitors, residentId: Id, input: NewVisitor, id: Id, now: int, who: Id)
    requires id !in vs && Create(vs, residentId, input, id, now).Ok?
    ensures ListedIds(Create(vs, residentId, input, id, now).value, who) ==
      if who == residentId then ListedIds(vs, who) + {id} else ListedIds(vs, who)
  {
  }

  /** Removing takes the visitor off every listing and touches nothing else. */
  lemma RemoveUnlists(vs: Visitors, id: Id, residentId: Id, now: int)
    requires Remove(vs, id, residentId).Ok?
    ensures ListedIds(Remove(vs, id, residentId).value, residentId) == ListedIds(vs, residentId) - {id}
    ensures CurrentIds(Remove(vs, id, residentId).value, residentId, now) == CurrentIds(vs, residentId, now) - {id}
  {
  }

  /** As time passes the set of current visitors can only shrink. */
  lemma CurrentShrinks(vs: Visitors, residentId: Id, earlier: int, later: int)
    requires earlier <= later
    ensures CurrentIds(vs, residentId, later) <= CurrentIds(vs, residentId, earlier)
    ensures CurrentIds(vs, residentId, later) <= ListedIds(vs, residentId)
  {
  }
}

=== FILE: wrappers.dfy ===
/** Failure-carrying results used by every service model: the source's
    thrown exceptions become the `Err` side of a `Result`. */
module Wrappers {

  datatype Option<+T> = None | Some(value: T) {
    /** The value, or `default` when absent (the source's `x ?? default`). */
    function GetOr(default: T): T
    {
      match this
      case Some(v) => v
      case None => default
    }
  }

  datatype Result<+R, +E> = Ok(value: R) | Err(error: E) {
    predicate IsFailure() { Err? }

    function PropagateFailure<U>(): Result<U, E>
      requires Err?
    {
      Err(error)
    }

    function Extract(): R
      requires Ok?
    {
      value
    }
  }

  /** JavaScript truthiness of an optional string: present and non-empty. */
  predicate Truthy(s: Option<string>)
  {
    s.Some? && |s.value| > 0
  }
}
